=== FILE: README.md ===
# AniResQ core in Dafny

AniResQ connects citizens who report animals in distress with NGOs that rescue them.
This project models its core:

- **Report dispatch.** A citizen files a report. NGOs near it find it with a bounding-box query around their position. One NGO accepts it and then posts treatment updates. Admins moderate reports and delete fake ones.
- **Accounts.** Sign-up validation, login, the e-mail OTP flow and profile edits.
- **Admin user management.** Role lists, blacklisting and dashboard counts.
- **Volunteer requests** from citizens to NGOs.
- **Camera alerts.** The two de-duplication machines in front of the alert endpoint: the CCTV service's per-camera 30-second cache and the live detector's per-track 20-second cooldown.
- **Client logic.** A few pieces of the mobile app: the treatment-update form, the six-cell OTP entry, the NGO directory and the admin blacklist screen.

Every handler is a pure function over an immutable store (`map<Id, Report>`, `map<Id, User>`, `map<Id, VolunteerRequest>`). It answers with `Result`: either the new store, or the HTTP failure the handler sends.

Calls the model cannot see become parameters:
- the upload's URLs;
- the clock, in integer milliseconds on the server and integer seconds in the ML service;
- the random draw of the OTP;
- the fresh document id;
- the password hash and compare functions;
- the backend's HTTP status for an alert post.

A creation whose fresh id is already taken answers with a duplicate-key server error, which is how a unique-index violation surfaces.

Modules, one per source file or concern:

- `Wrappers`, `Ids`, `Text`, `Seqs`: `Option`/`Result` and HTTP failures; ASCII text helpers (JavaScript truthiness, case mapping, trimming); order-preserving sub-lists and `Filter`.
- `ReportModel`, `UserModel`, `VolunteerModel`: the three Mongoose records, their enums and defaults. `ReportModel` also holds the report schema *as written* (see Findings).
- `ReportController`, `ReportLifecycle`: the report handlers, and the invariants that hold over any sequence of them.
- `AuthController`, `AdminUsers`, `VolunteerController`: the account, admin and volunteer handlers.
- `AlertCache` (the CCTV service) and `LiveDetection` (the live camera detector).
- `UpdateStatusScreen`, `ForgotPasswordScreen`, `NgoInfo`, `BlacklistScreen`: the client screens.

## Model

| member | source | states |
|---|---|---|
| ReportModel.ParseAnimalType | backend/src/model/report.js:20-23 | admits exactly "pet", "wild", "stray", and the admitted value names itself |
| ReportModel.ParseBehavior | backend/src/model/report.js:25-28 | admits exactly "aggressive", "normal", "unknown" |
| ReportModel.ParseInjury | backend/src/model/report.js:30-33 | admits exactly "yes", "no", "unknown" |
| ReportModel.ParseHumanHarm | backend/src/model/report.js:35-38 | admits exactly "injured", "no", "death" |
| ReportModel.EnumNamesRoundTrip | backend/src/model/report.js:20-38 | every enum value's name is admitted back as that same value |
| ReportModel.ParseSchemaStatus | backend/src/model/report.js:45-49 | the schema's status validator admits exactly the lower-case "pending", "accepted", "resolved" |
| ReportModel.SchemaCreate | backend/src/model/report.js:45-55 | a document created under the schema gets status "pending", acceptedBy null, and no adminStatus |
| ReportModel.SchemaSaveStatus | backend/src/model/report.js:45-49 | saving a status succeeds iff the lower-case enum admits it; otherwise the handler answers 500 |
| UserModel.ParseRole | backend/src/model/User.js:27-31 | admits exactly "citizen", "ngo", "admin" |
| UserModel.NewUser | backend/src/model/User.js:9-66 | a user created with only the required fields gets: the lower-cased, trimmed email; role citizen; not blacklisted; regiid null; empty aboutus and mission; no OTP |
| UserModel.WriteKeepsUniqueKeys | backend/src/model/User.js:9-25 | a write that no other user clashes with keeps the email and mobile numbers unique |
| VolunteerModel.ParseRequestStatus | backend/src/model/VolunteerRequest.js:17-21 | admits exactly "pending", "accepted", "rejected" |
| VolunteerModel.NewRequest | backend/src/model/VolunteerRequest.js:5-21 | a new request keeps both references and has status "pending" |
| ReportController.CreateReport | backend/src/controller/reportController.js:5-53 | succeeds iff the id is fresh and every supplied enum field is valid (else 500). It stores the caller as user and the coordinates as given (no range check). The image is the upload or absent. The report starts Pending/Pending with no acceptor and no updates. Existing reports are untouched |
| ReportController.AcceptReport | backend/src/controller/reportController.js:168-196 | unknown id gives 404. Status already "Accepted" gives 400 and no change. Otherwise only status becomes "Accepted" and acceptedBy becomes the caller; every other report and field is unchanged |
| ReportController.ReportsByRadius | backend/src/controller/reportController.js:237-273 | 400 iff a parameter is 0 or NaN. Otherwise it returns exactly the stored reports that are unclaimed and whose two coordinates are each within radius/111000 of the query's |
| ReportController.ZeroOrNaNQueryRefused | backend/src/controller/reportController.js:241-249 | a query at latitude 0, at longitude 0, with radius 0, or with a NaN parameter is refused |
| ReportController.NegativeRadiusFindsNothing | backend/src/controller/reportController.js:251-262 | a negative radius gives an empty result |
| ReportController.ClaimedNeverFound | backend/src/controller/reportController.js:251-254 | an accepted or moderated report is never returned, at any distance |
| ReportController.RadiusMonotone | backend/src/controller/reportController.js:255-262 | enlarging the radius never drops a report |
| ReportController.WriteSlot | backend/src/controller/reportController.js:309-326 | the result has max(1, old length) entries. Slot 0 holds the given fields and exactly the new media. Entries after slot 0 are untouched. A timestamp is set only when overwriting |
| ReportController.UpdateAcceptedReport | backend/src/controller/reportController.js:275-339 | unknown id gives 404. A caller other than the acceptor gets 403. Otherwise only the report's `updates` change, as in WriteSlot, and the status string is not checked |
| ReportController.SecondUpdateWins | backend/src/controller/reportController.js:309-317 | after two updates by the acceptor, slot 0 holds the second call's values and the slot count is unchanged |
| ReportController.UpdateAdminStatus | backend/src/controller/reportController.js:123-144 | 404 iff the id is unknown. Otherwise adminStatus becomes the supplied value, whatever it was, and nothing else changes |
| ReportController.DeleteFakeReport | backend/src/controller/reportController.js:73-103 | unknown id gives 404. adminStatus other than "Fake" gives 400. Otherwise exactly that report is removed |
| ReportController.MarkFakeThenDelete | backend/src/controller/reportController.js:86-92 | marking a report "Fake" makes its deletion succeed, removing exactly it |
| ReportController.GetReportById | backend/src/controller/reportController.js:148-164 | the stored report, or 404 iff the id is unknown |
| ReportController.AcceptedReports | backend/src/controller/reportController.js:200-215 | exactly the reports whose acceptor is the caller |
| ReportController.MyReports | backend/src/controller/reportController.js:56-69 | exactly the reports whose reporter is the caller |
| ReportController.CreatedReportIsListed | backend/src/controller/reportController.js:5-69 | after a successful create, `getReportById` of the new id answers that report with the caller as reporter, the caller's own list gains exactly the new report, and every other caller's list is unchanged |
| ReportController.AcceptMovesReportToAcceptedList | backend/src/controller/reportController.js:182-185 | after an acceptance the report leaves every radius result and appears in the acceptor's list |
| ReportLifecycle.StepKeepsAcceptorMatchesStatus | backend/src/controller/reportController.js:176-185 | every handler keeps "has an acceptor iff status is Accepted" |
| ReportLifecycle.StepKeepsAcceptor | backend/src/controller/reportController.js:176-185 | no single request changes an existing acceptor |
| ReportLifecycle.StepKeepsSingleSlot | backend/src/controller/reportController.js:309-326 | every handler keeps each report at no more than one treatment update |
| ReportLifecycle.RunKeepsSingleSlot | backend/src/controller/reportController.js:309-326 | any sequence of requests keeps each report at no more than one treatment update |
| ReportLifecycle.AcceptorNeverReassigned | backend/src/controller/reportController.js:172-185 | with requests served one at a time and ids never reused, a report's acceptor never changes while the report exists |
| ReportLifecycle.DeletedStaysDeleted | backend/src/controller/reportController.js:92 | a removed id stays absent unless a later request creates it |
| ReportLifecycle.SecondAcceptorLoses | backend/src/controller/reportController.js:175-185 | of two acceptances in a row, the first wins and the second is told the report is already accepted |
| ReportLifecycle.DispatchScenario | backend/src/controller/reportController.js:31-44 | end to end: a created stray is found 3 km away; once accepted it is no longer found; the acceptor's update is its single entry |
| ReportLifecycle.BoundingBoxExample | backend/src/controller/reportController.js:255-262 | a report 0.01 degrees away is inside a 5 km box and outside a 100 m box |
| ReportLifecycle.AsWrittenNewReportNeverFound | backend/src/model/report.js:45-55 | under the schema as written, no radius query ever returns a newly created report |
| ReportLifecycle.AsWrittenAcceptFailsValidation | backend/src/model/report.js:45-49 | under the schema as written, saving the accept's "Accepted" fails validation |
| ReportLifecycle.SchemaApply | backend/src/controller/reportController.js:123-193 | under the schema as written, an admin-status assignment never changes the stored adminStatus (strict mode drops the path), and an accept whose save fails validation stores nothing |
| ReportLifecycle.AsWrittenRunKeeps | backend/src/model/report.js:45-57 | under the schema as written, no sequence of admin-status updates and accepts changes a stored report |
| ReportLifecycle.AsWrittenNoDeleteNoUpdate | backend/src/controller/reportController.js:86-91 | under the schema as written, a created report never becomes "Fake" and never gets an acceptor, whatever admins and NGOs do, so `deleteFakeReport` answers 400 and `updateAcceptedReport` 403 for it |
| ReportLifecycle.CreatedReportIsDiscoverable | backend/src/controller/reportController.js:31-44 | with the controller's strings, a created report with coordinates is found by a query centred on it and can then be accepted |
| AuthController.FindByEmail | backend/src/controller/authcontroller.js:53-56 | a user with the normalised email, absent iff there is none |
| AuthController.TruthyOrNull | backend/src/controller/authcontroller.js:89-91 | a coordinate is kept iff it is truthy (present and nonzero), otherwise stored as null |
| AuthController.SignupRejection | backend/src/controller/authcontroller.js:25-60 | the first failing check, in this order: required fields, password length, ten-digit mobile, latitude, longitude, existing email, role, and last the schema's required email after trimming (the validation error the catch at lines 120-123 answers with 400). No rejection iff every check passes |
| AuthController.SignupUser | backend/src/controller/authcontroller.js:83-96 | the stored user has the given name and mobile, the normalised email, the lower-cased role and the hashed password; each coordinate as given, or null when falsy; the uploaded image or ""; the given regiid; aboutus and mission or "". It is not blacklisted and has no OTP |
| AuthController.Signup | backend/src/controller/authcontroller.js:8-130 | a rejection by SignupRejection is answered with that 400. A form SignupRejection passes succeeds iff the id is fresh and no unique index clashes (else a duplicate-key 500), storing exactly the SignupUser record under the new id. Success implies that SignupRejection passed, so any truthy coordinate is in range. The stored email is never empty, and other users are untouched |
| AuthController.BlankEmailRefused | backend/src/model/User.js:9-15 | an email of spaces passes the handler's own checks but is trimmed to "" and refused with 400 |
| AuthController.SignupKeepsUniqueKeys | backend/src/controller/authcontroller.js:83-93 | a successful sign-up keeps email and mobile unique |
| AuthController.ZeroLatitudeStoredAsNull | backend/src/controller/authcontroller.js:37-42 | latitude 0 skips the range check and is stored as null |
| AuthController.Login | backend/src/controller/authcontroller.js:133-175 | 400 when a field is missing. With both fields, success iff the email is known and the password matches that user's hash, and every failure is the same 401, for an unknown email as for a wrong password |
| AuthController.SignupThenLogin | backend/src/controller/authcontroller.js:133-150 | logging in with the credentials just signed up with reaches the new account |
| AuthController.DecimalString | backend/src/controller/authcontroller.js:185 | `toString()` of a natural number is a non-empty string of decimal digits |
| AuthController.DecimalRoundTrip | backend/src/controller/authcontroller.js:185 | reading back a number's decimal string gives the number |
| AuthController.SixDigitLength | backend/src/controller/authcontroller.js:185 | a number in [100000, 999999] has six decimal digits |
| AuthController.OtpNumber | backend/src/controller/authcontroller.js:185 | the drawn OTP number lies in [100000, 999999] |
| AuthController.ForgotPassword | backend/src/controller/authcontroller.js:179-198 | 404 iff the email is unknown. Otherwise only that user's OTP (six digits, value in range) and its expiry change |
| AuthController.VerifyOtp | backend/src/controller/authcontroller.js:201-232 | 404 for an unknown user. Then, in order: no OTP or no expiry is "OTP not requested", a different OTP is "Invalid OTP", a clock past the expiry is "OTP expired". Success iff the stored OTP equals the given one and the clock is not past the expiry; it clears both fields and changes nothing else |
| AuthController.OtpReplayRefused | backend/src/controller/authcontroller.js:206-216 | replaying a verified OTP is answered "OTP not requested" |
| AuthController.IssuedOtpVerifies | backend/src/controller/authcontroller.js:179-216 | an OTP just issued verifies at once, and leaves the user as before the request |
| AuthController.UpdateMyProfile | backend/src/controller/authcontroller.js:242-325 | validation failures come first, then 404 for an unknown user; otherwise success iff no unique index clashes. Each truthy string field replaces the stored one and a falsy one keeps it; an upload replaces the image; present coordinates replace the stored ones. Email, role, password, blacklist flag and OTP never change; other users are untouched |
| AuthController.EmptyProfileEditChangesNothing | backend/src/controller/authcontroller.js:288-298 | an edit supplying nothing leaves the store unchanged |
| AuthController.ProfileEditIdempotent | backend/src/controller/authcontroller.js:288-298 | applying the same edit twice equals applying it once |
| AuthController.ProfileEditKeepsUniqueKeys | backend/src/controller/authcontroller.js:288-300 | a successful profile edit keeps email and mobile unique |
| AuthController.ProfileRejection | backend/src/controller/authcontroller.js:258-268 | an edit passes validation iff a truthy mobile has ten digits and each present coordinate is in range, 0 included |
| AdminUsers.AllUsers | backend/src/controller/admin/adminUserController.js:5-18 | exactly the non-admin users |
| AdminUsers.UsersWithRole | backend/src/controller/admin/adminUserController.js:20-47 | exactly the users with the given role |
| AdminUsers.RoleListsCoverNonAdmins | backend/src/controller/admin/adminUserController.js:5-47 | the NGO and citizen lists are disjoint and together equal the non-admin list |
| AdminUsers.ToggleBlacklist | backend/src/controller/admin/adminUserController.js:49-65 | 404 iff the id is unknown. Otherwise only that user's flag is negated |
| AdminUsers.ToggleTwiceRestores | backend/src/controller/admin/adminUserController.js:51-56 | toggling twice restores the store |
| AdminUsers.UnblacklistUser | backend/src/controller/admin/adminUserController.js:103-131 | 404 iff the id is unknown. Otherwise the flag becomes false, whatever it was, and nothing else changes |
| AdminUsers.UnblacklistIdempotent | backend/src/controller/admin/adminUserController.js:107-111 | unblacklisting twice equals unblacklisting once |
| AdminUsers.UnblacklistIsToggleWhenBlacklisted | backend/src/controller/admin/adminUserController.js:49-131 | on a blacklisted user, unblacklisting and toggling agree |
| AdminUsers.DeleteUser | backend/src/controller/admin/adminUserController.js:66-77 | always succeeds; afterwards no user has the id and the others are untouched |
| AdminUsers.DeletedUserIsGone | backend/src/controller/admin/adminUserController.js:5-118 | after a delete the id is in no user listing (all, by role, blacklisted), and toggling or unblacklisting it answers 404 |
| AdminUsers.BlacklistedAccounts | backend/src/controller/admin/adminUserController.js:81-99 | exactly the blacklisted non-admin users |
| AdminUsers.UnblacklistedLeavesList | backend/src/controller/admin/adminUserController.js:103-118 | an unblacklisted user no longer appears among the blacklisted accounts |
| AdminUsers.Dashboard | backend/src/controller/admin/adminUserController.js:134-169 | total is the number of reports; ongoing counts the reports with status "Accepted" or "InProgress", completed those with "Complete", and together they never exceed the total. The blacklisted count is the blacklisted-accounts list plus the blacklisted admins, and at most the number of users |
| AdminUsers.AcceptRegroups | backend/src/controller/admin/adminUserController.js:139-147 | an accepted report joins the ongoing group and leaves the completed one; no other report changes group |
| AdminUsers.AcceptRaisesOngoing | backend/src/controller/admin/adminUserController.js:137-147 | accepting a report raises the ongoing count by one unless it was already ongoing, lowers the completed count by one if it was "Complete", and leaves the total and the blacklisted count |
| VolunteerController.SendVolunteerRequest | backend/src/controller/volunteerController.js:6-41 | 404 unless the target is an NGO. 400 when the pair already has a request. Otherwise exactly one pending request from the caller to that NGO is added |
| VolunteerController.SendKeepsOnePerPair | backend/src/controller/volunteerController.js:20-32 | a successful send keeps at most one request per (citizen, NGO) pair |
| VolunteerController.SendsKeepOnePerPair | backend/src/controller/volunteerController.js:20-32 | any sequence of sends keeps at most one request per pair |
| VolunteerController.RepeatedSendRefused | backend/src/controller/volunteerController.js:20-27 | sending the same pair again is refused with 400 |
| VolunteerController.NgoRequests | backend/src/controller/volunteerController.js:46-57 | exactly the requests addressed to the caller |
| VolunteerController.SentRequestReachesNgo | backend/src/controller/volunteerController.js:6-83 | a sent request appears in the target NGO's list (its ids gain exactly the new one, with the sender as citizen) and no other NGO's list changes; a later status change keeps that list's ids and shows the new status |
| VolunteerController.UpdateRequestStatus | backend/src/controller/volunteerController.js:62-83 | unknown id gives 404. A status outside the enum gives 500. Otherwise the status becomes the supplied one, with no ownership or current-status check, and the references are kept |
| VolunteerController.StatusChangeKeepsOnePerPair | backend/src/controller/volunteerController.js:67-74 | a status change keeps one request per pair |
| AlertCache.PruneLaterSubsumes | backend/ml-service/app.py:114-118 | pruning at t1 and then at a later t2 equals pruning once at t2 |
| AlertCache.Prune | backend/ml-service/app.py:114-118 | only a camera already in the cache is rewritten, to its entries younger than 30 s, in order |
| AlertCache.ShouldSendAlert | backend/ml-service/app.py:100-128 | always prunes. Allows the alert iff there are detections and none of the camera's entries survives |
| AlertCache.DecisionIsPerCamera | backend/ml-service/app.py:114-126 | the decision depends only on that camera's entries |
| AlertCache.RecordSend | backend/ml-service/app.py:175-182 | an entry is appended to the camera's list iff the backend answered 201 |
| AlertCache.AnimalDetections | backend/ml-service/app.py:239 | an order-preserving sub-list keeping exactly the objects whose lower-cased class is neither "human" nor "humans" |
| AlertCache.ProcessFrame | backend/ml-service/app.py:239-276 | the alert is decided on the animal detections only. Every processed frame prunes the camera's entries, also one without animals. After a send answered 201 the camera holds exactly the new entry; otherwise the cache is the pruned one. Other cameras are untouched |
| AlertCache.HumansOnlyNeverAlert | backend/ml-service/app.py:239-247 | a frame holding only humans never alerts, yet still drops the camera's expired entries |
| AlertCache.FrameLeavesOnlyRecentEntries | backend/ml-service/app.py:114-118 | when the send is stamped no earlier than the decision, every entry left for the camera is younger than 30 s at the frame's time |
| AlertCache.FailedSendKeepsAllowing | backend/ml-service/app.py:175-182 | after a failed send the same detections are allowed again on every later frame |
| AlertCache.SuppressedForThirtySeconds | backend/ml-service/app.py:114-126 | after a successful send, a later frame alerts iff at least 30 s have passed |
| LiveDetection.IsAnimal | backend/ml-service/live_detection.py:67-68 | a class is an animal only if its name is at least as long as the shortest animal class |
| LiveDetection.IsAnimalIgnoresCase | backend/ml-service/live_detection.py:53-68 | membership in the animal classes ignores case |
| LiveDetection.TrackOf | backend/ml-service/live_detection.py:191 | a box without a tracker id is filed under track -1 |
| LiveDetection.Detections | backend/ml-service/live_detection.py:185-199 | one detection per animal box, in box order |
| LiveDetection.Bump | backend/ml-service/live_detection.py:201 | the count for the name rises by one and every other count is unchanged, so the total rises by one |
| LiveDetection.CountDetections | backend/ml-service/live_detection.py:194-201 | every class's count rises by exactly the number of detections of that class, so each detection is counted under its own class; the detection total and the sum of the class counts both rise by the number of detections |
| LiveDetection.Cooldown | backend/ml-service/live_detection.py:211-220 | every kept detection is unseen or silent for more than 20 s; the kept detections form an order-preserving sub-list with distinct tracks; the list is non-empty iff some detection qualifies; exactly the kept tracks are stamped with now. The converse direction is in the two lemmas below |
| LiveDetection.CooldownKeepsEveryFiringTrack | backend/ml-service/live_detection.py:211-220 | the kept tracks are exactly the tracks of the detections that may alert (unseen, or last alert more than 20 s ago), so no alert-worthy track is dropped |
| LiveDetection.CooldownKeepsFirstSighting | backend/ml-service/live_detection.py:211-220 | what is kept for a track is its first detection in the frame; with CooldownKeepsEveryFiringTrack, a detection is kept iff it is the first of an alert-worthy track |
| LiveDetection.UntrackedShareOneCooldown | backend/ml-service/live_detection.py:191 | boxes without tracker ids yield at most one alert per frame |
| LiveDetection.CooldownRunsFromLastAlert | backend/ml-service/live_detection.py:215-220 | a suppressed sighting does not restart the cooldown |
| LiveDetection.Delivered | backend/ml-service/live_detection.py:103-125 | counts the posts answered 201 among the first n: none iff no such response, all n when every one of them is 201, never more than n or than the responses there are |
| LiveDetection.DeliveredCountsCreated | backend/ml-service/live_detection.py:117-125 | the count is exactly the number of 201 answers among the first n posts |
| LiveDetection.OnFrame | backend/ml-service/live_detection.py:170-222 | every frame is counted. Only every fifth frame is detected, and other frames change nothing else. On a detected frame the tracks are those of the cooldown loop and alertsSent rises by the number of its alerts the backend answered with 201. The counts stay balanced |
| LiveDetection.RunCountsEveryFrame | backend/ml-service/live_detection.py:170-174 | after n frames the frame count has risen by n |
| LiveDetection.RunKeepsCountsBalanced | backend/ml-service/live_detection.py:194-201 | the per-class counts always add up to the detection total |
| LiveDetection.Initial | backend/ml-service/live_detection.py:54-61 | the detector starts with no tracks and balanced, empty statistics |
| UpdateStatusScreen.Prefill | AniResQ/app/ngo/update-status.jsx:309-345 | the form is filled from the last update, with "In Treatment", "", "" defaults, and stays initial when there are no updates |
| UpdateStatusScreen.LastSegment | AniResQ/app/ngo/update-status.jsx:376 | the suffix after the last '/', or the whole string |
| UpdateStatusScreen.ToMedia | AniResQ/app/ngo/update-status.jsx:374-378 | the picker's file name, or else the URI's last segment; the type is video/mp4 for videos and image/jpeg otherwise |
| UpdateStatusScreen.PickMedia | AniResQ/app/ngo/update-status.jsx:373-381 | cancelling changes nothing. Otherwise the picked assets are appended, in order, after the existing media |
| UpdateStatusScreen.PartitionIsComplete | AniResQ/app/ngo/update-status.jsx:407-417 | every item lands in exactly one part |
| UpdateStatusScreen.PartitionMedia | AniResQ/app/ngo/update-status.jsx:407-417 | stored URLs go to `existingMedia[]` and picked files to `media`, each in original order |
| UpdateStatusScreen.HandleSave | AniResQ/app/ngo/update-status.jsx:388-417 | no token: "login again". A status outside the three choices: refused. Otherwise the three fields and the partitioned media are sent |
| UpdateStatusScreen.SaveAlert | AniResQ/app/ngo/update-status.jsx:386-446 | "Login again" without a token, "Invalid Status" for a status outside the three; a sent request reads "Success" iff it was answered or failed with "Network Error", and "Update Failed" otherwise |
| UpdateStatusScreen.PickThenSave | AniResQ/app/ngo/update-status.jsx:373-417 | picking and then saving sends the URLs already listed unchanged, and the files already picked followed by the new assets in picker order |
| UpdateStatusScreen.NetworkErrorLooksLikeSuccess | AniResQ/app/ngo/update-status.jsx:431-446 | a failed request reads "Success" iff its message is exactly "Network Error"; a save stopped before sending never reads "Success" |
| UpdateStatusScreen.SaveThenPrefill | AniResQ/app/ngo/update-status.jsx:339-424 | after a save through the server, the screen prefills what was saved, except that the media become only the newly uploaded URLs |
| ForgotPasswordScreen.EmptyOtpIsValid | AniResQ/app/auth/forgotpassword.jsx:240 | the initial state has six empty cells |
| ForgotPasswordScreen.HandleOtpChange | AniResQ/app/auth/forgotpassword.jsx:323-332 | rejected input changes nothing. Accepted input changes only the cell at the index. A digit moves focus to the next cell, except in the last cell. The six-cell invariant is kept |
| ForgotPasswordScreen.JoinLength | AniResQ/app/auth/forgotpassword.jsx:282 | for cells of at most one character, the join is as long as the cell list iff no cell is empty |
| ForgotPasswordScreen.VerifyGuard | AniResQ/app/auth/forgotpassword.jsx:281-285 | the code is sent iff the joined cells have six characters |
| ForgotPasswordScreen.VerifyNeedsEveryCell | AniResQ/app/auth/forgotpassword.jsx:282-285 | with valid cells, verification proceeds iff every cell is filled |
| ForgotPasswordScreen.TypedCodeIsSent | AniResQ/app/auth/forgotpassword.jsx:282-332 | typing a six-digit code cell by cell sends exactly that code |
| ForgotPasswordScreen.SendOtpGuard | AniResQ/app/auth/forgotpassword.jsx:253-256 | an empty email is refused before any request |
| ForgotPasswordScreen.SendOtpReachesServer | AniResQ/app/auth/forgotpassword.jsx:253-264 | an email that passes the guard reaches `forgotPassword` unchanged, which issues an OTP iff an account has that address and otherwise answers 404 "User not found" |
| NgoInfo.Split | AniResQ/app/citizen/ngoinfo.jsx:27 | at least one piece, none containing a space |
| NgoInfo.SplitJoinRoundTrip | AniResQ/app/citizen/ngoinfo.jsx:27 | joining the pieces with spaces gives the string back |
| NgoInfo.FirstCharsAreWordStarts | AniResQ/app/citizen/ngoinfo.jsx:26-29 | the pieces' first characters are exactly the word starts |
| NgoInfo.Initials | AniResQ/app/citizen/ngoinfo.jsx:25-32 | the upper-cased word starts, in order, cut to two characters. At most two characters; "" for "" |
| NgoInfo.InitialsOfTwoWords | AniResQ/app/citizen/ngoinfo.jsx:25-32 | "blue cross" gives "BC" |
| NgoInfo.InitialsOfOneWord | AniResQ/app/citizen/ngoinfo.jsx:25-32 | "paws" gives "P" |
| NgoInfo.GetAllNgos | backend/src/controller/authcontroller.js:354-377 | an order-preserving sub-list of exactly the NGOs that are not blacklisted; 404 iff there are none |
| NgoInfo.ToCard | AniResQ/app/citizen/ngoinfo.jsx:45-57 | verified iff not blacklisted, with active cases 0 |
| NgoInfo.FilterCards | AniResQ/app/citizen/ngoinfo.jsx:74-79 | an order-preserving sub-list keeping exactly the cards the chip admits; any other chip keeps all |
| NgoInfo.VerifiedChipsPartition | AniResQ/app/citizen/ngoinfo.jsx:75-76 | the "verified" and "unverified" results partition the cards |
| NgoInfo.ActiveChipAlwaysEmpty | AniResQ/app/citizen/ngoinfo.jsx:50-77 | the "active" chip always shows nothing |
| NgoInfo.DirectoryHasOnlyVerified | AniResQ/app/citizen/ngoinfo.jsx:45-79 | fed by the server's NGO list, every card is verified |
| BlacklistScreen.CalculateDays | AniResQ/app/admin/Blacklist.jsx:252-257 | the least whole number of days covering the distance between the instants |
| BlacklistScreen.CalculateDaysSymmetric | AniResQ/app/admin/Blacklist.jsx:255 | symmetric in its two instants |
| BlacklistScreen.CalculateDaysZeroAndOne | AniResQ/app/admin/Blacklist.jsx:255-256 | 0 iff the instants coincide; anything up to one day apart gives 1 |
| BlacklistScreen.FromUser | backend/src/model/User.js:3-66 | a listed account carries the user's name and role, and never a blacklist reason |
| BlacklistScreen.Format | AniResQ/app/admin/Blacklist.jsx:237-243 | "NGO" iff role is "ngo", else "User". The reason, or "No reason". The first ten characters of updatedAt |
| BlacklistScreen.ServerAccountsHaveNoReason | AniResQ/app/admin/Blacklist.jsx:237-243 | every account from the server shows "No reason", and its type tells NGOs from others exactly |

## Left out

- Concurrency. `acceptReport` reads and then saves, which is not a compare-and-swap, so two simultaneous accepts can both succeed. The model serves one request at a time and claims exclusivity only in that setting.
- Persistence details. Mongoose `populate` and `sort({ createdAt: -1 })` are not modelled. The listing handlers return the matching reports as a map, so no order is promised.
- `getAllReports`: it lists every report, populated and sorted, and has no logic beyond persistence.
- `getMyProfile`: it has no logic beyond persistence.
- The public `getAllUsers` in authcontroller.js: it has no logic beyond persistence.
- `getMyNotifications` refers to a `Notification` model that its file never imports, so every call ends in the 500 branch.
- Cloudinary uploads, bcrypt and JWT issuance, the auth middleware, Express routing and the OTP e-mail are outside the model. Uploads appear as their resulting URLs; hashing and comparison are function parameters. A failed OTP e-mail after the OTP is saved, which yields 500 with the OTP stored, is not modelled.
- ML inference, video capture and clip writing. The HTTP requests of the ML services are replaced by their status codes.
- Floating point. Coordinates and radii are exact `real`s; NaN is `None`; `parseFloat` and `Date` parsing are not modelled. Times are integers: seconds in the ML services, milliseconds on the server and in the blacklist screen.
- Case mapping and trimming are ASCII-only; JavaScript's full Unicode `toLowerCase`/`toUpperCase` and `trim` are not modelled.
- `mobileno` is a Number in the schema. The model keeps it as the validated digit string, so a leading zero is not lost as it would be in the cast.
- E-mail look-ups compare against the normalised address. This assumes Mongoose applies the path's `lowercase`/`trim` setters to the query, as it does when casting a filter on a path with those options.
- `updateAcceptedReport` does not validate the update status on the server; only the client restricts it to three values. The model follows the code.
- The server ignores the `existingMedia[]` fields the client sends, so earlier media are lost on every update. The model states this as a consequence (`UpdateStatusScreen.SaveThenPrefill`).
- Client navigation, alerts, timers, loading flags, rendering and storage are not modelled. Screens are modelled only through the logic named above.
- The blacklist screen's `calculateDays` takes the two instants as integer milliseconds; building a `Date` from the string is not modelled.
- LiveDetection.Delivered: counts a post as sent only on 201. Exceptions raised by the HTTP client are modelled as a non-201 status.
- UpdateStatusScreen.SaveThenPrefill: stated only for reports holding at most one update. That is every report, by `ReportLifecycle.RunKeepsSingleSlot`. With more entries the client reads the last one while the server writes the first.
- ReportController.UpdateAdminStatus and VolunteerController.UpdateRequestStatus take the new value as a string. A body without the field assigns `undefined`, which removes the path and still saves with 200; that case is not represented.
- AuthController.Signup counts password length in characters. JavaScript's `length` counts UTF-16 code units, so a password of four characters outside the Basic Multilingual Plane passes the source's check but is refused by the model.
- ReportController.CreateReport: coordinates and `incidentDate` arrive already parsed. The handler passes the raw body strings to `Report.create`; a value Mongoose cannot cast (latitude "abc", an invalid date) raises a validation error that the catch answers with 500. The model cannot express such a value, so that 500 is not among its answers.
- AuthController.Signup: coordinates arrive already parsed. A non-numeric string such as "abc" is truthy and passes the range checks (comparisons with NaN are false), then fails the cast in `User.create`; the catch answers that ValidationError with 400 and Mongoose's message. The model cannot express such a value, so that 400 is not among its answers.
- AuthController.UpdateMyProfile: coordinates arrive already parsed. A non-numeric string passes the range checks and fails the cast in `user.save()`, which the catch answers with 500. The model cannot express such a value, so that 500 is not among its answers.
- Ids are natural numbers. A malformed `:id` makes `findById` throw a cast error, which every by-id handler answers with 500; the model cannot express such an id.

## Findings

| source | as written | input that shows it | evidently intended | confidence | as-written member | corrected member |
|---|---|---|---|---|---|---|
| backend/src/model/report.js:45-55 | The schema's `status` enum is lower-case ("pending", "accepted", "resolved") and the schema has no `adminStatus` or `updates` path, while the controller writes and queries "Pending"/"Accepted", `adminStatus` and `updates`. | Create a report and query its exact location with radius 1000. The stored document has status "pending" and no adminStatus, so the filter `adminStatus: "Pending", status: "Pending"` never matches it. Accepting any report saves status "Accepted", which fails the enum, so the handler answers 500. | A new report is Pending/Pending and discoverable by nearby NGOs, and can be accepted, as the controller assumes. | not executed | ReportLifecycle.AsWrittenNewReportNeverFound | ReportLifecycle.CreatedReportIsDiscoverable |
| backend/src/model/report.js:45-49 | Saving the accept handler's "Accepted" status is checked against the lower-case enum. | Any report accepted by an NGO: `SchemaSaveStatus(d, "Accepted")` is an error. | The accept succeeds and records the acceptor. | not executed | ReportLifecycle.AsWrittenAcceptFailsValidation | ReportController.AcceptReport |

Other behaviour that follows from the code as written, stated in the model rather than corrected:
- The User schema has no `blacklistReason`, so the blacklist screen always shows "No reason" (`BlacklistScreen.ServerAccountsHaveNoReason`).
- The NGO directory receives only NGOs that are not blacklisted. Its "unverified" chip is therefore always empty (`NgoInfo.DirectoryHasOnlyVerified`). Every card has zero active cases, so its "active" chip is always empty too (`NgoInfo.ActiveChipAlwaysEmpty`).
- The dashboard's blacklisted count includes admins, while the blacklisted-accounts list excludes them (`AdminUsers.Dashboard`).
- Under the report schema as written, `updateAdminStatus` answers 200 but stores nothing, because strict mode drops the undeclared `adminStatus` path. No report ever becomes "Fake", so `deleteFakeReport` answers 400 for every existing report. No accept ever saves, so no report gets an acceptor and `updateAcceptedReport` answers 403 to every caller (`ReportLifecycle.AsWrittenNoDeleteNoUpdate`).
- `updateRequestStatus` lets any authenticated caller change any request (`VolunteerController.UpdateRequestStatus`).
- backend/index.js mounts only the auth and report routers (lines 18-20), and any other path gets its catch-all "Hello world". The admin, moderation and volunteer handlers modelled here are therefore unreachable from that entry point, and the model treats them as if their routers were mounted. The detection router is not mounted either. So an alert post from the ML services would get the catch-all's 200 rather than 201: nothing is ever cached (`AlertCache.FailedSendKeepsAllowing`), and no alert is counted as sent (`LiveDetection.Delivered`).

=== FILE: admin_users.dfy ===
/** The admin handlers of backend/src/controller/admin/adminUserController.js. */
module AdminUsers {
  import opened Wrappers
  import opened Ids
  import opened UserModel
  import opened ReportModel
  import ReportController

  /** `getAllUsers`: exactly the users who are not admins. */
  function AllUsers(users: UserStore): (r: UserStore)
    ensures forall id :: id in r <==> id in users && users[id].role != Admin
    ensures forall id :: id in r ==> r[id] == users[id]
  {
    map id | id in users && users[id].role != Admin :: users[id]
  }

  /** `getNgoUsers` and `getCitizenUsers`: exactly the users with the given role. */
  function UsersWithRole(users: UserStore, role: Role): (r: UserStore)
    ensures forall id :: id in r <==> id in users && users[id].role == role
    ensures forall id :: id in r ==> r[id] == users[id]
  {
    map id | id in users && users[id].role == role :: users[id]
  }

  /** The NGO and citizen lists together make up the non-admin list. */
  lemma RoleListsCoverNonAdmins(users: UserStore)
    ensures UsersWithRole(users, Ngo) + UsersWithRole(users, Citizen) == AllUsers(users)
    ensures UsersWithRole(users, Ngo).Keys !! UsersWithRole(users, Citizen).Keys
  {
  }

  /** `toggleBlacklist`: a missing user is 404; otherwise only the flag is negated. */
  function ToggleBlacklist(users: UserStore, id: Id): (r: Result<UserStore>)
    ensures r.Err? <==> id !in users
    ensures r.Err? ==> r.failure == NotFound("User not found")
    ensures r.Ok? ==> r.value.Keys == users.Keys
    ensures r.Ok? ==> forall other :: other in users && other != id ==> r.value[other] == users[other]
    ensures r.Ok? ==> r.value[id].isBlacklisted == !users[id].isBlacklisted
    ensures r.Ok? ==> r.value[id].(isBlacklisted := users[id].isBlacklisted) == users[id]
  {
    if id !in users then Err(NotFound("User not found"))
    else Ok(users[id := users[id].(isBlacklisted := !users[id].isBlacklisted)])
  }

  /** Toggling twice restores the store. */
  lemma {:induction false} ToggleTwiceRestores(users: UserStore, id: Id)
    requires id in users
    ensures ToggleBlacklist(ToggleBlacklist(users, id).value, id) == Ok(users)
  {
    var once := ToggleBlacklist(users, id).value;
    assert once[id := once[id].(isBlacklisted := !once[id].isBlacklisted)] == users;
  }

  /** `unblacklistUser`: a missing user is 404; otherwise the flag becomes false
      whatever it was, and nothing else changes. */
  function UnblacklistUser(users: UserStore, id: Id): (r: Result<UserStore>)
    ensures r.Err? <==> id !in users
    ensures r.Err? ==> r.failure == NotFound("User not found")
    ensures r.Ok? ==> r.value.Keys == users.Keys
    ensures r.Ok? ==> forall other :: other in users && other != id ==> r.value[other] == users[other]
    ensures r.Ok? ==> !r.value[id].isBlacklisted
    ensures r.Ok? ==> r.value[id].(isBlacklisted := users[id].isBlacklisted) == users[id]
  {
    if id !in users then Err(NotFound("User not found"))
    else Ok(users[id := users[id].(isBlacklisted := false)])
  }

  /** Unblacklisting is idempotent. */
  lemma {:induction false} UnblacklistIdempotent(users: UserStore, id: Id)
    requires id in users
    ensures UnblacklistUser(UnblacklistUser(users, id).value, id) == UnblacklistUser(users, id)
  {
    var once := UnblacklistUser(users, id).value;
    assert once[id := once[id].(isBlacklisted := false)] == once;
  }

  /** Unblacklisting a blacklisted user is the same as toggling it. */
  lemma UnblacklistIsToggleWhenBlacklisted(users: UserStore, id: Id)
    requires id in users && users[id].isBlacklisted
    ensures UnblacklistUser(users, id) == ToggleBlacklist(users, id)
  {
  }

  /** `deleteUser`: answers success whether or not the id exists; afterwards no user has it. */
  function DeleteUser(users: UserStore, id: Id): (r: Result<UserStore>)
    ensures r.Ok?
    ensures r.value.Keys == users.Keys - {id}
    ensures forall other :: other in r.value ==> r.value[other] == users[other]
  {
    Ok(users - {id})
  }

  /** A deleted user is gone from every listing, and a later toggle of it is not found. */
  lemma DeletedUserIsGone(users: UserStore, id: Id, role: Role)
    ensures var after := DeleteUser(users, id).value;
            && id !in AllUsers(after)
            && id !in UsersWithRole(after, role)
            && id !in BlacklistedAccounts(after)
            && ToggleBlacklist(after, id) == Err(NotFound("User not found"))
            && UnblacklistUser(after, id) == Err(NotFound("User not found"))
  {
  }

  /** `getBlacklistedAccounts`: exactly the blacklisted users who are not admins. */
  function BlacklistedAccounts(users: UserStore): (r: UserStore)
    ensures forall id :: id in r <==> id in users && users[id].isBlacklisted && users[id].role != Admin
    ensures forall id :: id in r ==> r[id] == users[id]
  {
    map id | id in users && users[id].isBlacklisted && users[id].role != Admin :: users[id]
  }

  /** After unblacklisting, the user no longer appears among the blacklisted accounts. */
  lemma UnblacklistedLeavesList(users: UserStore, id: Id)
    requires id in users
    ensures id !in BlacklistedAccounts(UnblacklistUser(users, id).value)
  {
  }

  // ---------------------------------------------------------------------------
  // getAdminDashboardStats
  // ---------------------------------------------------------------------------

  datatype DashboardStats = DashboardStats(
    totalReports: nat, ongoingRescues: nat, completedRescues: nat, blacklistedUsers: nat)

  predicate Ongoing(rep: Report) {
    rep.status == "Accepted" || rep.status == "InProgress"
  }

  predicate Completed(rep: Report) {
    rep.status == "Complete"
  }

  function OngoingIds(reports: ReportStore): set<Id> {
    set id | id in reports && Ongoing(reports[id])
  }

  function CompletedIds(reports: ReportStore): set<Id> {
    set id | id in reports && Completed(reports[id])
  }

  function BlacklistedIds(users: UserStore): set<Id> {
    set id | id in users && users[id].isBlacklisted
  }

  /** A subset has no more elements than its superset. */
  lemma {:induction false} SubsetCardinality<T>(a: set<T>, b: set<T>)
    requires a <= b
    ensures |a| <= |b|
    decreases |b|
  {
    if a != {} {
      var x :| x in a;
      SubsetCardinality(a - {x}, b - {x});
    }
  }

  function BlacklistedAdminIds(users: UserStore): set<Id> {
    set id | id in users && users[id].isBlacklisted && users[id].role == Admin
  }

  /** `getAdminDashboardStats`: the four counts. Ongoing rescues are the reports whose
      status is "Accepted" or "InProgress", completed ones those whose status is
      "Complete"; the two groups are disjoint, so together they never exceed the total.
      The blacklisted count covers every role, so it is the length of the
      blacklisted-accounts list plus the blacklisted admins that list leaves out. */
  function Dashboard(reports: ReportStore, users: UserStore): (r: DashboardStats)
    ensures r.totalReports == |reports.Keys|
    ensures r.ongoingRescues == |OngoingIds(reports)|
    ensures r.completedRescues == |CompletedIds(reports)|
    ensures r.ongoingRescues + r.completedRescues <= r.totalReports
    ensures r.blacklistedUsers <= |users.Keys|
    ensures r.blacklistedUsers == |BlacklistedAccounts(users).Keys| + |BlacklistedAdminIds(users)|
  {
    var ongoing, completed := OngoingIds(reports), CompletedIds(reports);
    assert ongoing !! completed;
    SubsetCardinality(ongoing + completed, reports.Keys);
    SubsetCardinality(BlacklistedIds(users), users.Keys);
    var listed, admins := BlacklistedAccounts(users).Keys, BlacklistedAdminIds(users);
    assert BlacklistedIds(users) == listed + admins;
    assert listed !! admins;
    DashboardStats(|reports.Keys|, |ongoing|, |completed|, |BlacklistedIds(users)|)
  }

  /** Accepting a report makes it ongoing and no longer completed, and moves no other
      report between the groups. */
  lemma AcceptRegroups(reports: ReportStore, id: Id, caller: Id)
    requires ReportController.AcceptReport(reports, id, caller).Ok?
    ensures var s := ReportController.AcceptReport(reports, id, caller).value;
            && s.Keys == reports.Keys
            && OngoingIds(s) == OngoingIds(reports) + {id}
            && CompletedIds(s) == CompletedIds(reports) - {id}
  {
  }

  /** Accepting a report raises the ongoing count by one unless it was already
      ongoing, lowers the completed count by one if it was "Complete", and leaves the
      total and the blacklisted count as they were. */
  lemma {:induction false} AcceptRaisesOngoing(reports: ReportStore, users: UserStore, id: Id, caller: Id)
    requires ReportController.AcceptReport(reports, id, caller).Ok?
    ensures var before := Dashboard(reports, users);
            var after := Dashboard(ReportController.AcceptReport(reports, id, caller).value, users);
            && after.totalReports == before.totalReports
            && after.ongoingRescues == before.ongoingRescues + (if Ongoing(reports[id]) then 0 else 1)
            && after.completedRescues == before.completedRescues - (if Completed(reports[id]) then 1 else 0)
            && after.blacklistedUsers == before.blacklistedUsers
  {
    AcceptRegroups(reports, id, caller);
    var o, c := OngoingIds(reports), CompletedIds(reports);
    if Ongoing(reports[id]) {
      assert o + {id} == o;
    } else {
      assert |o + {id}| == |o| + 1;
    }
    if Completed(reports[id]) {
      assert |c - {id}| == |c| - 1;
    } else {
      assert c - {id} == c;
    }
  }
}

=== FILE: alert_cache.dfy ===
/** The per-camera alert de-duplication of the CCTV service, backend/ml-service/app.py:
    `should_send_alert`, the cache append in `send_detection_to_backend` and the human
    filter in `process_cctv_stream`. Time is in whole seconds. */
module AlertCache {
  import opened Text
  import opened Seqs

  /** One object found in a frame; only its class name matters here. */
  datatype Detection = Detection(className: string)

  /** A successful send remembered by the cache: when it happened and what was sent. */
  datatype Entry = Entry(at: int, objects: seq<Detection>)

  type Cache = map<string, seq<Entry>>

  /** `cache_expiry_seconds`. */
  const ExpirySeconds := 30

  predicate Fresh(e: Entry, now: int) {
    now - e.at < ExpirySeconds
  }

  /** The entries younger than the expiry, in their original order. */
  function Recent(entries: seq<Entry>, now: int): (r: seq<Entry>)
    ensures r == Filter(e => Fresh(e, now), entries)
    ensures forall i :: 0 <= i < |r| ==> now - r[i].at < ExpirySeconds
    ensures forall i :: 0 <= i < |entries| && now - entries[i].at < ExpirySeconds ==> entries[i] in r
  {
    Filter(e => Fresh(e, now), entries)
  }

  /** Pruning at an earlier time and then at a later one is the same as pruning once at
      the later time: nothing the later prune would keep is lost by the earlier one. */
  lemma {:induction false} PruneLaterSubsumes(entries: seq<Entry>, t1: int, t2: int)
    requires t1 <= t2
    ensures Recent(Recent(entries, t1), t2) == Recent(entries, t2)
    decreases |entries|
  {
    if |entries| > 0 {
      PruneLaterSubsumes(entries[1..], t1, t2);
    }
  }

  /** The cache after the pruning step: only a camera already present is rewritten. */
  function Prune(cache: Cache, camera: string, now: int): (r: Cache)
    ensures r.Keys == cache.Keys
    ensures forall c :: c in cache && c != camera ==> r[c] == cache[c]
    ensures camera in cache ==> r[camera] == Recent(cache[camera], now)
  {
    if camera in cache then cache[camera := Recent(cache[camera], now)] else cache
  }

  datatype Decision = Decision(send: bool, cache: Cache)

  /** `should_send_alert`: prune the camera's entries (also when there are no
      detections), then allow the alert exactly when there are detections and no
      entry for the camera survives. */
  function ShouldSendAlert(cache: Cache, camera: string, detections: seq<Detection>, now: int): (r: Decision)
    ensures r.cache == Prune(cache, camera, now)
    ensures r.send <==> |detections| > 0 && (camera !in cache || Recent(cache[camera], now) == [])
    ensures |detections| == 0 ==> !r.send
  {
    var pruned := Prune(cache, camera, now);
    if |detections| == 0 then Decision(false, pruned)
    else if camera in pruned && pruned[camera] != [] then Decision(false, pruned)
    else Decision(true, pruned)
  }

  /** The decision for a camera depends only on that camera's own entries. */
  lemma DecisionIsPerCamera(c1: Cache, c2: Cache, camera: string, detections: seq<Detection>,
                                               now: int)
    requires camera in c1 <==> camera in c2
    requires camera in c1 ==> c1[camera] == c2[camera]
    ensures ShouldSendAlert(c1, camera, detections, now).send == ShouldSendAlert(c2, camera, detections, now).send
  {
  }

  /** The cache append of `send_detection_to_backend`: an entry stamped `sentAt` is added
      to the camera's list only when the backend answered 201. */
  function RecordSend(cache: Cache, camera: string, status: int, sentAt: int, objects: seq<Detection>): (r: Cache)
    ensures status != 201 ==> r == cache
    ensures status == 201 ==> r.Keys == cache.Keys + {camera}
    ensures status == 201 ==> r[camera] == (if camera in cache then cache[camera] else []) + [Entry(sentAt, objects)]
    ensures forall c :: c in cache && c != camera ==> r[c] == cache[c]
  {
    if status == 201 then
      cache[camera := (if camera in cache then cache[camera] else []) + [Entry(sentAt, objects)]]
    else cache
  }

  /** The detections left after removing every object whose lower-cased class name is
      "human" or "humans". */
  predicate IsHuman(d: Detection) {
    Lower(d.className) == "human" || Lower(d.className) == "humans"
  }

  function AnimalDetections(detections: seq<Detection>): (r: seq<Detection>)
    ensures SubsequenceOf(r, detections)
    ensures forall i :: 0 <= i < |r| ==> !IsHuman(r[i])
    ensures forall i :: 0 <= i < |detections| && !IsHuman(detections[i]) ==> detections[i] in r
  {
    Filter(d => !IsHuman(d), detections)
  }

  /** One processed frame of `process_cctv_stream`: filter out humans, then decide on
      what is left (which prunes the camera's entries on every processed frame, also one
      without animals), and on a positive decision send and record the backend's answer. */
  function ProcessFrame(cache: Cache, camera: string, objects: seq<Detection>, now: int, status: int,
                        sentAt: int): (r: Decision)
    ensures r.send <==> ShouldSendAlert(cache, camera, AnimalDetections(objects), now).send
    ensures !r.send ==> r.cache == Prune(cache, camera, now)
    ensures r.send && status != 201 ==> r.cache == Prune(cache, camera, now)
    ensures r.send && status == 201 ==> camera in r.cache && r.cache[camera] == [Entry(sentAt, AnimalDetections(objects))]
    ensures r.cache.Keys == cache.Keys + (if r.send && status == 201 then {camera} else {})
    ensures forall c :: c in cache && c != camera ==> r.cache[c] == cache[c]
  {
    var animals := AnimalDetections(objects);
    var d := ShouldSendAlert(cache, camera, animals, now);
    if d.send then Decision(true, RecordSend(d.cache, camera, status, sentAt, animals))
    else d
  }

  /** A frame holding only humans never raises an alert, yet it still drops the
      camera's expired entries. */
  lemma {:induction false} HumansOnlyNeverAlert(cache: Cache, camera: string, objects: seq<Detection>, now: int,
                                                status: int, sentAt: int)
    requires forall i :: 0 <= i < |objects| ==> IsHuman(objects[i])
    ensures !ProcessFrame(cache, camera, objects, now, status, sentAt).send
    ensures ProcessFrame(cache, camera, objects, now, status, sentAt).cache == Prune(cache, camera, now)
  {
    FilterNone(d => !IsHuman(d), objects);
  }

  /** The cache invariant a frame leaves behind: when the send is stamped no earlier
      than the decision, every entry kept for the camera is younger than the expiry. */
  lemma FrameLeavesOnlyRecentEntries(cache: Cache, camera: string, objects: seq<Detection>, now: int,
                                     status: int, sentAt: int)
    requires now <= sentAt
    ensures var c := ProcessFrame(cache, camera, objects, now, status, sentAt).cache;
            camera in c ==> forall i :: 0 <= i < |c[camera]| ==> Fresh(c[camera][i], now)
  {
  }

  /** Without a successful send the cache never grows, so the same detections keep
      being allowed on every later frame. */
  lemma FailedSendKeepsAllowing(cache: Cache, camera: string, objects: seq<Detection>, now: int,
                                                   status: int, sentAt: int, later: int)
    requires status != 201
    requires ProcessFrame(cache, camera, objects, now, status, sentAt).send
    ensures var c := ProcessFrame(cache, camera, objects, now, status, sentAt).cache;
            ProcessFrame(c, camera, objects, later, status, sentAt).send
  {
  }

  /** After a successful send at `sentAt`, a later frame with animals is suppressed
      exactly while fewer than 30 seconds have passed since the send. */
  lemma SuppressedForThirtySeconds(cache: Cache, camera: string, objects: seq<Detection>,
                                                      now: int, sentAt: int, later: int, status2: int, sentAt2: int)
    requires ProcessFrame(cache, camera, objects, now, 201, sentAt).send
    ensures var c := ProcessFrame(cache, camera, objects, now, 201, sentAt).cache;
            ProcessFrame(c, camera, objects, later, status2, sentAt2).send <==> later - sentAt >= ExpirySeconds
  {
  }
}

=== FILE: auth_controller.dfy ===
/** The account handlers of backend/src/controller/authcontroller.js. Password
    hashing and comparison are parameters (`hash`, `matches`); token issuance is left
    out; the clock, the random draw and uploads are inputs. Look-ups by email use the
    normalised address (see README). */
module AuthController {
  import opened Wrappers
  import opened Ids
  import Text
  import opened UserModel

  // ---------------------------------------------------------------------------
  // Look-up by email
  // ---------------------------------------------------------------------------

  function UsersWithEmail(users: UserStore, email: string): set<Id> {
    set id | id in users && users[id].email == NormalizeEmail(email)
  }

  /** `User.findOne({ email })`: some user whose stored email matches, if any. The unique
      index on email makes the choice immaterial. */
  ghost function FindByEmail(users: UserStore, email: string): (r: Option<Id>)
    ensures r.None? <==> UsersWithEmail(users, email) == {}
    ensures r.Some? ==> r.value in users && users[r.value].email == NormalizeEmail(email)
  {
    var ids := UsersWithEmail(users, email);
    if ids == {} then None else var id :| id in ids; Some(id)
  }

  // ---------------------------------------------------------------------------
  // signup
  // ---------------------------------------------------------------------------

  /** The JSON body of a sign-up. Absent fields are None; an absent, null or NaN
      coordinate is None, so `Some(0.0)` is the only falsy coordinate that is present. */
  datatype SignupForm = SignupForm(
    name: Option<string>,
    email: Option<string>,
    password: Option<string>,
    mobileno: Option<string>,
    role: Option<string>,
    latitude: Option<real>,
    longitude: Option<real>,
    regiid: Option<string>,
    aboutus: Option<string>,
    mission: Option<string>)

  const MissingFields: string := "Name, email, password, mobile are required"
  const ShortPassword: string := "Password must be at least 8 characters long"
  const BadMobile: string := "Mobile number must be exactly 10 digits"
  const BadLatitude: string := "Invalid latitude"
  const BadLongitude: string := "Invalid longitude"
  const EmailExists: string := "Email already exists"
  const BadRole: string := "Valid role is required"
  /** The message of the validation error `User.create` raises when the trimmed email
      is empty; the handler's catch answers it with 400. */
  const EmailRequired: string := "User validation failed: email: Path `email` is required."

  /** JavaScript truthiness of a parsed coordinate. */
  predicate CoordinateTruthy(x: Option<real>) {
    x.Some? && x.value != 0.0
  }

  predicate HasRequiredFields(f: SignupForm) {
    Text.Truthy(f.name) && Text.Truthy(f.email) && Text.Truthy(f.password) && Text.Truthy(f.mobileno)
  }

  /** The range check runs only on a truthy value and is inclusive at both ends. */
  predicate OutOfRange(x: Option<real>, bound: real) {
    CoordinateTruthy(x) && (x.value < -bound || x.value > bound)
  }

  predicate EmailTaken(users: UserStore, email: string) {
    UsersWithEmail(users, email) != {}
  }

  predicate ValidRole(role: Option<string>) {
    Text.Truthy(role) && ParseRole(Text.Lower(role.value)).Some?
  }

  /** The first failing validation of a sign-up, in the handler's order, ending with
      the schema's `required` check on the email after its `trim` setter. */
  function SignupRejection(users: UserStore, f: SignupForm): (r: Option<string>)
    ensures !HasRequiredFields(f) ==> r == Some(MissingFields)
    ensures HasRequiredFields(f) && |f.password.value| < 8 ==> r == Some(ShortPassword)
    ensures HasRequiredFields(f) && |f.password.value| >= 8 && !Text.IsTenDigits(f.mobileno.value) ==>
              r == Some(BadMobile)
    ensures HasRequiredFields(f) && |f.password.value| >= 8 && Text.IsTenDigits(f.mobileno.value) ==>
              (OutOfRange(f.latitude, 90.0) ==> r == Some(BadLatitude))
              && (!OutOfRange(f.latitude, 90.0) && OutOfRange(f.longitude, 180.0) ==> r == Some(BadLongitude))
    ensures HasRequiredFields(f) && |f.password.value| >= 8 && Text.IsTenDigits(f.mobileno.value)
            && !OutOfRange(f.latitude, 90.0) && !OutOfRange(f.longitude, 180.0) ==>
              (EmailTaken(users, f.email.value) ==> r == Some(EmailExists))
              && (!EmailTaken(users, f.email.value) && !ValidRole(f.role) ==> r == Some(BadRole))
              && (!EmailTaken(users, f.email.value) && ValidRole(f.role) && NormalizeEmail(f.email.value) == "" ==>
                    r == Some(EmailRequired))
    ensures r.None? <==>
              && HasRequiredFields(f) && |f.password.value| >= 8 && Text.IsTenDigits(f.mobileno.value)
              && !OutOfRange(f.latitude, 90.0) && !OutOfRange(f.longitude, 180.0)
              && !EmailTaken(users, f.email.value) && ValidRole(f.role) && NormalizeEmail(f.email.value) != ""
  {
    if !HasRequiredFields(f) then Some(MissingFields)
    else if |f.password.value| < 8 then Some(ShortPassword)
    else if !Text.IsTenDigits(f.mobileno.value) then Some(BadMobile)
    else if OutOfRange(f.latitude, 90.0) then Some(BadLatitude)
    else if OutOfRange(f.longitude, 180.0) then Some(BadLongitude)
    else if EmailTaken(users, f.email.value) then Some(EmailExists)
    else if !ValidRole(f.role) then Some(BadRole)
    else if NormalizeEmail(f.email.value) == "" then Some(EmailRequired)
    else None
  }

  /** `latitude || null`: a falsy coordinate is stored as null. */
  function TruthyOrNull(x: Option<real>): (r: Option<real>)
    ensures r.Some? <==> CoordinateTruthy(x)
    ensures r.Some? ==> r == x
  {
    if CoordinateTruthy(x) then x else None
  }

  /** The user record a successful sign-up writes: the given name and mobile, the
      normalised email, the lower-cased role, the hashed password, each coordinate or
      null when falsy, the upload's URL or "", and the optional texts or their
      defaults; not blacklisted and without an OTP. */
  function SignupUser(f: SignupForm, hash: string -> string, image: Option<string>): (u: User)
    requires HasRequiredFields(f) && ValidRole(f.role)
    ensures u.name == f.name.value && u.mobileno == f.mobileno.value
    ensures u.email == NormalizeEmail(f.email.value)
    ensures u.role.Name() == Text.Lower(f.role.value)
    ensures u.password == hash(f.password.value)
    ensures !u.isBlacklisted && u.otp.None? && u.otpExpiry.None?
    ensures u.address == Address(TruthyOrNull(f.latitude), TruthyOrNull(f.longitude))
    ensures u.image == Some(image.GetOr(""))
    ensures u.regiid == f.regiid && u.aboutus == f.aboutus.GetOr("") && u.mission == f.mission.GetOr("")
  {
    User(f.name.value, NormalizeEmail(f.email.value), hash(f.password.value), f.mobileno.value,
         ParseRole(Text.Lower(f.role.value)).value, false,
         Address(TruthyOrNull(f.latitude), TruthyOrNull(f.longitude)),
         Some(image.GetOr("")), f.regiid, f.aboutus.GetOr(""), f.mission.GetOr(""), None, None)
  }

  /** `signup`: the first failing check, in the order required fields, password length,
      mobile format, latitude, longitude, existing email, role, and then the schema's
      own check that the trimmed email is not empty (a validation error the catch
      answers with 400), decides the 400; a write the unique indexes refuse answers
      500; otherwise the new user is stored. */
  function Signup(users: UserStore, f: SignupForm, hash: string -> string,
                  image: Option<string>, freshId: Id): (r: Result<UserStore>)
    ensures SignupRejection(users, f).Some? ==> r == Err(BadRequest(SignupRejection(users, f).value))
    ensures r.Ok? ==>
      && SignupRejection(users, f).None?
      && freshId !in users
      && r.value.Keys == users.Keys + {freshId}
      && (forall id :: id in users ==> r.value[id] == users[id])
      && r.value[freshId] == SignupUser(f, hash, image)
      && r.value[freshId].email != ""
    ensures SignupRejection(users, f).None? ==>
              (r.Ok? <==> freshId !in users && !ClashesWith(users, freshId, SignupUser(f, hash, image)))
    ensures SignupRejection(users, f).None? && r.Err? ==> r.failure == ServerError(DuplicateKey)
  {
    var rejection := SignupRejection(users, f);
    if rejection.Some? then Err(BadRequest(rejection.value))
    else
      var u := SignupUser(f, hash, image);
      if freshId in users || ClashesWith(users, freshId, u) then Err(ServerError(DuplicateKey))
      else Ok(users[freshId := u])
  }

  /** An email of spaces passes every check of the handler itself, but the schema
      trims it to "" and its `required` validator refuses the document with a 400. */
  lemma BlankEmailRefused(hash: string -> string, image: Option<string>, freshId: Id)
    ensures var f := SignupForm(Some("Ann"), Some("  "), Some("password1"), Some("0123456789"),
                                Some("citizen"), None, None, None, None, None);
            Signup(map[], f, hash, image, freshId) == Err(BadRequest(EmailRequired))
  {
  }

  /** A sign-up keeps the email and mobile-number indexes unique. */
  lemma SignupKeepsUniqueKeys(users: UserStore, f: SignupForm, hash: string -> string,
                                                 image: Option<string>, freshId: Id)
    requires UniqueKeys(users)
    requires Signup(users, f, hash, image, freshId).Ok?
    ensures UniqueKeys(Signup(users, f, hash, image, freshId).value)
  {
  }

  /** A coordinate of 0 skips the range check and is stored as null. */
  lemma ZeroLatitudeStoredAsNull(users: UserStore, f: SignupForm, hash: string -> string,
                                 image: Option<string>, freshId: Id)
    requires f.latitude == Some(0.0)
    requires Signup(users, f, hash, image, freshId).Ok?
    ensures Signup(users, f, hash, image, freshId).value[freshId].address.latitude.None?
  {
  }

  // ---------------------------------------------------------------------------
  // login
  // ---------------------------------------------------------------------------

  const InvalidCredentials: string := "Invalid email or password"

  /** `login`: 400 when a field is missing, and the same 401 for an unknown email and
      for a wrong password. */
  ghost function Login(users: UserStore, email: Option<string>, password: Option<string>,
                       matches: (string, string) -> bool): (r: Result<Id>)
    ensures !Text.Truthy(email) || !Text.Truthy(password) ==>
              r == Err(BadRequest("Email and password are required"))
    ensures Text.Truthy(email) && Text.Truthy(password) && !EmailTaken(users, email.value) ==>
              r == Err(Unauthorized(InvalidCredentials))
    ensures r.Ok? ==> r.value in users && users[r.value].email == NormalizeEmail(email.value)
                      && matches(password.value, users[r.value].password)
    ensures Text.Truthy(email) && Text.Truthy(password) && EmailTaken(users, email.value) ==>
              (r.Ok? <==> matches(password.value, users[FindByEmail(users, email.value).value].password))
    ensures Text.Truthy(email) && Text.Truthy(password) && r.Err? ==> r == Err(Unauthorized(InvalidCredentials))
  {
    if !Text.Truthy(email) || !Text.Truthy(password) then Err(BadRequest("Email and password are required"))
    else
      var found := FindByEmail(users, email.value);
      if found.None? then Err(Unauthorized(InvalidCredentials))
      else if !matches(password.value, users[found.value].password) then Err(Unauthorized(InvalidCredentials))
      else Ok(found.value)
  }

  /** Signing up and then logging in with the same email and password reaches the new
      account, when the password comparison accepts its own hash. */
  lemma {:induction false} SignupThenLogin(users: UserStore, f: SignupForm, hash: string -> string,
                                           matches: (string, string) -> bool,
                                           image: Option<string>, freshId: Id)
    requires Signup(users, f, hash, image, freshId).Ok?
    requires forall p :: matches(p, hash(p))
    ensures Login(Signup(users, f, hash, image, freshId).value, f.email, f.password, matches) == Ok(freshId)
  {
    var s := Signup(users, f, hash, image, freshId).value;
    assert !EmailTaken(users, f.email.value);
    assert UsersWithEmail(s, f.email.value) == {freshId};
  }

  // ---------------------------------------------------------------------------
  // forgotPassword and verifyOTP
  // ---------------------------------------------------------------------------

  function DigitChar(d: nat): char
    requires d < 10
  {
    ('0' as int + d) as char
  }

  function DigitValue(c: char): nat
    requires Text.IsDigit(c)
  {
    c as int - '0' as int
  }

  /** `Number.prototype.toString()` of a natural number. */
  function DecimalString(n: nat): (s: string)
    ensures |s| >= 1 && Text.AllDigits(s)
    decreases n
  {
    if n < 10 then [DigitChar(n)] else DecimalString(n / 10) + [DigitChar(n % 10)]
  }

  /** The value of a string of decimal digits. */
  function DecimalValue(s: string): nat
    requires Text.AllDigits(s)
    decreases |s|
  {
    if |s| == 0 then 0 else 10 * DecimalValue(s[..|s| - 1]) + DigitValue(s[|s| - 1])
  }

  /** Reading back the decimal string of a number gives the number. */
  lemma {:induction false} DecimalRoundTrip(n: nat)
    ensures DecimalValue(DecimalString(n)) == n
    decreases n
  {
    var s := DecimalString(n);
    if n >= 10 {
      DecimalRoundTrip(n / 10);
      assert s[..|s| - 1] == DecimalString(n / 10);
    }
  }

  /** A number of [10^(k-1), 10^k) has exactly k decimal digits; six digits for an OTP. */
  lemma {:induction false} SixDigitLength(n: nat)
    requires 100000 <= n <= 999999
    ensures |DecimalString(n)| == 6
  {
    assert DecimalString(n) == DecimalString(n / 10) + [DigitChar(n % 10)];
    assert DecimalString(n / 10) == DecimalString(n / 100) + [DigitChar(n / 10 % 10)];
    assert DecimalString(n / 100) == DecimalString(n / 1000) + [DigitChar(n / 100 % 10)];
    assert DecimalString(n / 1000) == DecimalString(n / 10000) + [DigitChar(n / 1000 % 10)];
    assert DecimalString(n / 10000) == DecimalString(n / 100000) + [DigitChar(n / 10000 % 10)];
  }

  /** `Math.floor(100000 + Math.random() * 900000)` for a draw in [0, 1). */
  function OtpNumber(draw: real): (n: nat)
    requires 0.0 <= draw < 1.0
    ensures 100000 <= n <= 999999
  {
    var x := 100000.0 + draw * 900000.0;
    assert 100000.0 <= x < 1000000.0;
    x.Floor
  }

  /** `forgotPassword`: an unknown email is not found; otherwise the user's OTP becomes a
      six-digit decimal string for a number in [100000, 999999], expiring
      `expiryMinutes` minutes (in milliseconds) after `now`; nothing else changes. */
  ghost function ForgotPassword(users: UserStore, email: string, draw: real, now: int,
                                expiryMinutes: int): (r: Result<UserStore>)
    requires 0.0 <= draw < 1.0
    ensures r.Err? <==> !EmailTaken(users, email)
    ensures r.Err? ==> r.failure == NotFound("User not found")
    ensures r.Ok? ==>
      var id := FindByEmail(users, email).value;
      && r.value.Keys == users.Keys
      && (forall other :: other in users && other != id ==> r.value[other] == users[other])
      && r.value[id].(otp := users[id].otp, otpExpiry := users[id].otpExpiry) == users[id]
      && r.value[id].otp.Some?
      && |r.value[id].otp.value| == 6 && Text.AllDigits(r.value[id].otp.value)
      && 100000 <= DecimalValue(r.value[id].otp.value) <= 999999
      && r.value[id].otpExpiry == Some(now + expiryMinutes * 60 * 1000)
  {
    var found := FindByEmail(users, email);
    if found.None? then Err(NotFound("User not found"))
    else
      var id := found.value;
      var n := OtpNumber(draw);
      SixDigitLength(n);
      DecimalRoundTrip(n);
      Ok(users[id := users[id].(otp := Some(DecimalString(n)), otpExpiry := Some(now + expiryMinutes * 60 * 1000))])
  }

  const OtpNotRequested: string := "OTP not requested"
  const InvalidOtp: string := "Invalid OTP"
  const OtpExpired: string := "OTP expired"

  /** `verifyOTP`: in order, an unknown user is 404, a missing OTP or expiry is "OTP not
      requested", a different OTP is "Invalid OTP", and a clock strictly past the expiry
      is "OTP expired"; success clears both fields and nothing else. */
  ghost function VerifyOtp(users: UserStore, email: string, otp: string, now: int): (r: Result<UserStore>)
    ensures !EmailTaken(users, email) ==> r == Err(NotFound("User not found"))
    ensures r.Ok? <==> (EmailTaken(users, email) &&
      var u := users[FindByEmail(users, email).value];
      u.otp == Some(otp) && otp != "" && u.otpExpiry.Some? && now <= u.otpExpiry.value)
    ensures r.Ok? ==>
      var id := FindByEmail(users, email).value;
      && r.value.Keys == users.Keys
      && (forall other :: other in users && other != id ==> r.value[other] == users[other])
      && r.value[id] == users[id].(otp := None, otpExpiry := None)
    ensures EmailTaken(users, email) ==>
      var u := users[FindByEmail(users, email).value];
      && (!Text.Truthy(u.otp) || u.otpExpiry.None? ==> r == Err(BadRequest(OtpNotRequested)))
      && (Text.Truthy(u.otp) && u.otpExpiry.Some? && u.otp.value != otp ==> r == Err(BadRequest(InvalidOtp)))
      && (Text.Truthy(u.otp) && u.otpExpiry.Some? && u.otp.value == otp && now > u.otpExpiry.value ==>
            r == Err(BadRequest(OtpExpired)))
  {
    var found := FindByEmail(users, email);
    if found.None? then Err(NotFound("User not found"))
    else
      var u := users[found.value];
      if !Text.Truthy(u.otp) || u.otpExpiry.None? then Err(BadRequest(OtpNotRequested))
      else if u.otp.value != otp then Err(BadRequest(InvalidOtp))
      else if now > u.otpExpiry.value then Err(BadRequest(OtpExpired))
      else Ok(users[found.value := u.(otp := None, otpExpiry := None)])
  }

  /** A verified OTP cannot be replayed: the second attempt is told no OTP was requested. */
  lemma {:induction false} OtpReplayRefused(users: UserStore, email: string, otp: string, now: int, later: int)
    requires VerifyOtp(users, email, otp, now).Ok?
    ensures VerifyOtp(VerifyOtp(users, email, otp, now).value, email, otp, later) == Err(BadRequest(OtpNotRequested))
  {
    var s := VerifyOtp(users, email, otp, now).value;
    var id := FindByEmail(users, email).value;
    assert UsersWithEmail(s, email) == UsersWithEmail(users, email);
  }

  /** An OTP issued by `forgotPassword` is accepted right away, and clearing it leaves
      the user's other fields as they were before the request. */
  lemma {:induction false} IssuedOtpVerifies(users: UserStore, email: string, draw: real, now: int,
                                             expiryMinutes: nat)
    requires 0.0 <= draw < 1.0
    requires EmailTaken(users, email)
    ensures var issued := ForgotPassword(users, email, draw, now, expiryMinutes).value;
            var id := FindByEmail(users, email).value;
            && VerifyOtp(issued, email, issued[id].otp.value, now)
               == Ok(users[id := users[id].(otp := None, otpExpiry := None)])
  {
    var issued := ForgotPassword(users, email, draw, now, expiryMinutes).value;
    var id := FindByEmail(users, email).value;
    assert UsersWithEmail(issued, email) == UsersWithEmail(users, email);
    assert issued[id := issued[id].(otp := None, otpExpiry := None)] == users[id := users[id].(otp := None, otpExpiry := None)];
  }

  // ---------------------------------------------------------------------------
  // updateMyProfile
  // ---------------------------------------------------------------------------

  /** The JSON body of a profile edit. An absent or null coordinate is None. */
  datatype ProfileForm = ProfileForm(
    name: Option<string>,
    mobileno: Option<string>,
    aboutus: Option<string>,
    mission: Option<string>,
    regiid: Option<string>,
    latitude: Option<real>,
    longitude: Option<real>)

  /** The profile merge: `if (field) user.field = field` for the strings, so a truthy
      string replaces and a falsy one keeps the stored value; coordinates use `??`. */
  function MergeProfile(u: User, f: ProfileForm, image: Option<string>): User {
    u.(name := Text.OrElse(f.name, u.name),
       mobileno := Text.OrElse(f.mobileno, u.mobileno),
       aboutus := Text.OrElse(f.aboutus, u.aboutus),
       mission := Text.OrElse(f.mission, u.mission),
       regiid := if Text.Truthy(f.regiid) then f.regiid else u.regiid,
       image := if image.Some? then image else u.image,
       address := Address(if f.latitude.Some? then f.latitude else u.address.latitude,
                          if f.longitude.Some? then f.longitude else u.address.longitude))
  }

  /** The first failing validation of a profile edit, in the handler's order; the
      coordinate checks run on any present value, 0 included. */
  function ProfileRejection(f: ProfileForm): (r: Option<string>)
    ensures r.None? <==> (Text.Truthy(f.mobileno) ==> Text.IsTenDigits(f.mobileno.value))
                         && (f.latitude.Some? ==> -90.0 <= f.latitude.value <= 90.0)
                         && (f.longitude.Some? ==> -180.0 <= f.longitude.value <= 180.0)
    ensures r.Some? ==> r.value in {BadMobile, BadLatitude, BadLongitude}
  {
    if Text.Truthy(f.mobileno) && !Text.IsTenDigits(f.mobileno.value) then Some(BadMobile)
    else if f.latitude.Some? && (f.latitude.value < -90.0 || f.latitude.value > 90.0) then Some(BadLatitude)
    else if f.longitude.Some? && (f.longitude.value < -180.0 || f.longitude.value > 180.0) then Some(BadLongitude)
    else None
  }

  /** `updateMyProfile`: the mobile number is checked only when truthy and the
      coordinates only when present, all before the look-up; falsy strings and absent
      coordinates keep the stored values; email, role, password, blacklist flag and OTP
      are never modified. */
  function UpdateMyProfile(users: UserStore, id: Id, f: ProfileForm, image: Option<string>)
    : (r: Result<UserStore>)
    ensures Text.Truthy(f.mobileno) && !Text.IsTenDigits(f.mobileno.value) ==> r == Err(BadRequest(BadMobile))
    ensures r.Ok? ==> id in users && r.value.Keys == users.Keys
    ensures r.Ok? ==> forall other :: other in users && other != id ==> r.value[other] == users[other]
    ensures r.Ok? ==>
      var before, after := users[id], r.value[id];
      && (f.latitude.Some? ==> -90.0 <= f.latitude.value <= 90.0)
      && (f.longitude.Some? ==> -180.0 <= f.longitude.value <= 180.0)
      && after.email == before.email && after.role == before.role && after.password == before.password
      && after.isBlacklisted == before.isBlacklisted
      && after.otp == before.otp && after.otpExpiry == before.otpExpiry
      && after.name == (if Text.Truthy(f.name) then f.name.value else before.name)
      && after.mobileno == (if Text.Truthy(f.mobileno) then f.mobileno.value else before.mobileno)
      && after.aboutus == (if Text.Truthy(f.aboutus) then f.aboutus.value else before.aboutus)
      && after.mission == (if Text.Truthy(f.mission) then f.mission.value else before.mission)
      && after.regiid == (if Text.Truthy(f.regiid) then f.regiid else before.regiid)
      && after.image == (if image.Some? then image else before.image)
      && (after.address.latitude == if f.latitude.Some? then f.latitude else before.address.latitude)
      && (after.address.longitude == if f.longitude.Some? then f.longitude else before.address.longitude)
    ensures ProfileRejection(f).Some? ==> r == Err(BadRequest(ProfileRejection(f).value))
    ensures ProfileRejection(f).None? && id !in users ==> r == Err(NotFound("User not found"))
    ensures ProfileRejection(f).None? && id in users ==>
              (r.Ok? <==> !ClashesWith(users, id, MergeProfile(users[id], f, image)))
    ensures ProfileRejection(f).None? && id in users && r.Err? ==> r.failure == ServerError(DuplicateKey)
  {
    var rejection := ProfileRejection(f);
    if rejection.Some? then Err(BadRequest(rejection.value))
    else if id !in users then Err(NotFound("User not found"))
    else
      var u := MergeProfile(users[id], f, image);
      if ClashesWith(users, id, u) then Err(ServerError(DuplicateKey))
      else Ok(users[id := u])
  }

  /** An edit that supplies nothing leaves the store as it was. */
  lemma {:induction false} EmptyProfileEditChangesNothing(users: UserStore, id: Id)
    requires UniqueKeys(users) && id in users
    ensures UpdateMyProfile(users, id, ProfileForm(None, None, None, None, None, None, None), None) == Ok(users)
  {
    var f := ProfileForm(None, None, None, None, None, None, None);
    assert MergeProfile(users[id], f, None) == users[id];
    assert users[id := users[id]] == users;
  }

  /** Applying the same edit twice is the same as applying it once. */
  lemma {:induction false} ProfileEditIdempotent(users: UserStore, id: Id, f: ProfileForm, image: Option<string>)
    requires UpdateMyProfile(users, id, f, image).Ok?
    ensures var once := UpdateMyProfile(users, id, f, image).value;
            UpdateMyProfile(once, id, f, image) == Ok(once)
  {
    var once := UpdateMyProfile(users, id, f, image).value;
    var u := MergeProfile(users[id], f, image);
    assert MergeProfile(u, f, image) == u;
    assert once[id := u] == once;
    if ClashesWith(once, id, u) {
      var other :| other in once && other != id && (once[other].email == u.email || once[other].mobileno == u.mobileno);
      assert ClashesWith(users, id, u);
    }
  }

  /** A profile edit keeps the email and mobile-number indexes unique. */
  lemma ProfileEditKeepsUniqueKeys(users: UserStore, id: Id, f: ProfileForm, image: Option<string>)
    requires UniqueKeys(users)
    requires UpdateMyProfile(users, id, f, image).Ok?
    ensures UniqueKeys(UpdateMyProfile(users, id, f, image).value)
  {
  }
}

=== FILE: blacklist_screen.dfy ===
/** The admin's blacklist screen, AniResQ/app/admin/Blacklist.jsx: how each account from
    `getBlacklistedAccounts` is formatted, and the day count shown beside it. Instants are
    integer milliseconds. */
module BlacklistScreen {
  import opened Wrappers
  import opened UserModel

  const MillisPerDay := 1000 * 60 * 60 * 24

  function Abs(x: int): nat {
    if x < 0 then -x else x
  }

  /** `Math.ceil(n / d)` for a non-negative `n` and a positive `d`. */
  function CeilDiv(n: nat, d: nat): nat
    requires d > 0
  {
    (n + d - 1) / d
  }

  /** `calculateDays`: the whole number of days that covers the distance between the two
      instants, i.e. the least `k` with `k` days reaching at least that far. */
  function CalculateDays(today: int, blacklisted: int): (r: nat)
    ensures r * MillisPerDay >= Abs(today - blacklisted)
    ensures r == 0 || (r - 1) * MillisPerDay < Abs(today - blacklisted)
  {
    CeilDiv(Abs(today - blacklisted), MillisPerDay)
  }

  /** The count does not depend on which instant comes first. */
  lemma CalculateDaysSymmetric(a: int, b: int)
    ensures CalculateDays(a, b) == CalculateDays(b, a)
  {
  }

  /** No days exactly when the instants coincide; one day apart, and anything up to one
      day apart, is one day. */
  lemma CalculateDaysZeroAndOne(a: int, b: int)
    ensures CalculateDays(a, b) == 0 <==> a == b
    ensures 0 < Abs(a - b) <= MillisPerDay ==> CalculateDays(a, b) == 1
    ensures CalculateDays(a + MillisPerDay, a) == 1
  {
  }

  /** An account as the screen receives it. The User schema has no `blacklistReason`, so
      an account coming from the server never carries one. */
  datatype Account = Account(name: string, role: string, blacklistReason: Option<string>, updatedAt: Option<string>)

  function FromUser(u: User, updatedAt: Option<string>): (a: Account)
    ensures a.name == u.name && a.role == u.role.Name() && a.blacklistReason.None?
  {
    Account(u.name, u.role.Name(), None, updatedAt)
  }

  datatype Row = Row(name: string, kind: string, reason: string, blacklistedDate: Option<string>)

  /** The formatting in `fetchBlacklisted`: "NGO" exactly for role "ngo" and "User"
      otherwise, the reason or "No reason", and the first ten characters of `updatedAt`
      (the calendar date of an ISO timestamp) when it is present. */
  function Format(a: Account): (r: Row)
    ensures r.name == a.name
    ensures r.kind == "NGO" <==> a.role == "ngo"
    ensures r.kind == "NGO" || r.kind == "User"
    ensures a.blacklistReason.Some? && a.blacklistReason.value != "" ==> r.reason == a.blacklistReason.value
    ensures a.blacklistReason.None? || a.blacklistReason.value == "" ==> r.reason == "No reason"
    ensures r.blacklistedDate.Some? <==> a.updatedAt.Some?
    ensures r.blacklistedDate.Some? ==>
              var full := a.updatedAt.value;
              && |r.blacklistedDate.value| == (if |full| < 10 then |full| else 10)
              && r.blacklistedDate.value == full[..|r.blacklistedDate.value|]
  {
    var reason := match a.blacklistReason
      case Some(s) => if s != "" then s else "No reason"
      case None => "No reason";
    var date := match a.updatedAt
      case Some(s) => Some(s[..if |s| < 10 then |s| else 10])
      case None => None;
    Row(a.name, if a.role == "ngo" then "NGO" else "User", reason, date)
  }

  /** Every account the server lists shows "No reason", and its type tells NGOs from
      citizens exactly. */
  lemma ServerAccountsHaveNoReason(u: User, updatedAt: Option<string>)
    ensures Format(FromUser(u, updatedAt)).reason == "No reason"
    ensures Format(FromUser(u, updatedAt)).kind == "NGO" <==> u.role == Ngo
  {
  }
}

=== FILE: forgot_password_screen.dfy ===
/** The OTP entry of the forgot-password screen, AniResQ/app/auth/forgotpassword.jsx:
    six one-character cells, the per-cell input filter, and the guards in front of the
    two requests. */
module ForgotPasswordScreen {
  import opened Wrappers
  import opened Text
  import UserModel
  import AuthController

  const OtpLength := 6

  /** What a cell may hold: nothing, or one decimal digit. This is also exactly what the
      input filter `^\d?$` lets through. */
  predicate IsCell(v: string) {
    |v| == 0 || (|v| == 1 && IsDigit(v[0]))
  }

  /** The screen's OTP state: six cells, each empty or one digit. */
  predicate ValidOtp(otp: seq<string>) {
    |otp| == OtpLength && forall i :: 0 <= i < |otp| ==> IsCell(otp[i])
  }

  /** The initial state. */
  const EmptyOtp: seq<string> := ["", "", "", "", "", ""]

  lemma EmptyOtpIsValid()
    ensures ValidOtp(EmptyOtp)
  {
  }

  datatype OtpChange = OtpChange(otp: seq<string>, focusNext: Option<nat>)

  /** `handleOtpChange`: input the filter rejects leaves the state as it was; accepted
      input replaces the cell at `index` and nothing else, and a digit in any cell but
      the last moves the focus one cell on. */
  function HandleOtpChange(otp: seq<string>, value: string, index: nat): (r: OtpChange)
    requires index < |otp|
    ensures !IsCell(value) ==> r.otp == otp && r.focusNext.None?
    ensures IsCell(value) ==> r.otp == otp[index := value]
    ensures r.focusNext.Some? <==> IsCell(value) && |value| == 1 && index < OtpLength - 1
    ensures r.focusNext.Some? ==> r.focusNext.value == index + 1
    ensures ValidOtp(otp) ==> ValidOtp(r.otp)
  {
    if !IsCell(value) then OtpChange(otp, None)
    else OtpChange(otp[index := value], if |value| > 0 && index < OtpLength - 1 then Some(index + 1) else None)
  }

  /** `otp.join("")`. */
  function Join(cells: seq<string>): string
    decreases |cells|
  {
    if |cells| == 0 then "" else cells[0] + Join(cells[1..])
  }

  /** For cells of at most one character, the joined string is as long as the list of
      cells exactly when no cell is empty. */
  lemma {:induction false} JoinLength(cells: seq<string>)
    requires forall i :: 0 <= i < |cells| ==> |cells[i]| <= 1
    ensures |Join(cells)| <= |cells|
    ensures |Join(cells)| == |cells| <==> forall i :: 0 <= i < |cells| ==> |cells[i]| == 1
    decreases |cells|
  {
    if |cells| > 0 {
      JoinLength(cells[1..]);
      if |cells[0]| == 1 && |Join(cells)| == |cells| {
        forall i | 0 <= i < |cells| ensures |cells[i]| == 1 {
          if i > 0 {
            assert cells[i] == cells[1..][i - 1];
          }
        }
      }
      if forall i :: 0 <= i < |cells| ==> |cells[i]| == 1 {
        assert forall i :: 0 <= i < |cells[1..]| ==> cells[1..][i] == cells[i + 1];
      }
    }
  }

  /** The guard of `verifyOtp`: the joined code is sent only when it has six characters. */
  function VerifyGuard(otp: seq<string>): (r: Option<string>)
    ensures r.Some? <==> |Join(otp)| == OtpLength
    ensures r.Some? ==> r.value == Join(otp)
  {
    var code := Join(otp);
    if |code| == OtpLength then Some(code) else None
  }

  /** Given the cell invariant, the guard passes exactly when every cell holds a digit. */
  lemma {:induction false} VerifyNeedsEveryCell(otp: seq<string>)
    requires ValidOtp(otp)
    ensures VerifyGuard(otp).Some? <==> forall i :: 0 <= i < |otp| ==> |otp[i]| == 1
  {
    JoinLength(otp);
  }

  /** The screen after typing the characters of `code` from position `i` on, one per
      cell, starting at cell `i`. */
  function EnterFrom(otp: seq<string>, code: string, i: nat): (r: seq<string>)
    requires |otp| == OtpLength && |code| == OtpLength && i <= OtpLength
    ensures |r| == OtpLength
    ensures forall j :: 0 <= j < i ==> r[j] == otp[j]
    decreases OtpLength - i
  {
    if i == OtpLength then otp else EnterFrom(HandleOtpChange(otp, [code[i]], i).otp, code, i + 1)
  }

  lemma {:induction false} EnterFromFills(otp: seq<string>, code: string, i: nat)
    requires |otp| == OtpLength && |code| == OtpLength && i <= OtpLength
    requires AllDigits(code)
    requires forall j :: 0 <= j < i ==> otp[j] == [code[j]]
    ensures forall j :: 0 <= j < OtpLength ==> EnterFrom(otp, code, i)[j] == [code[j]]
    decreases OtpLength - i
  {
    if i < OtpLength {
      assert IsCell([code[i]]);
      EnterFromFills(HandleOtpChange(otp, [code[i]], i).otp, code, i + 1);
    }
  }

  lemma {:induction false} JoinSingletons(cells: seq<string>, code: string)
    requires |cells| == |code|
    requires forall j :: 0 <= j < |cells| ==> cells[j] == [code[j]]
    ensures Join(cells) == code
    decreases |cells|
  {
    if |cells| > 0 {
      JoinSingletons(cells[1..], code[1..]);
      assert code == [code[0]] + code[1..];
    }
  }

  /** Typing a six-digit code into the six cells in order lets it through the guard
      unchanged. */
  lemma {:induction false} TypedCodeIsSent(code: string)
    requires |code| == OtpLength && AllDigits(code)
    ensures VerifyGuard(EnterFrom(EmptyOtp, code, 0)) == Some(code)
  {
    EnterFromFills(EmptyOtp, code, 0);
    JoinSingletons(EnterFrom(EmptyOtp, code, 0), code);
  }

  /** The guard of `sendOtp`: an empty email is refused before any request. */
  function SendOtpGuard(email: string): (r: Option<string>)
    ensures r.None? <==> email == ""
    ensures r.Some? ==> r.value == email
  {
    if email == "" then None else Some(email)
  }

  /** `sendOtp` then `forgotPassword`: an email that passes the guard reaches the server
      unchanged, and an OTP is issued for it exactly when an account has that address. */
  lemma SendOtpReachesServer(users: UserModel.UserStore, email: string, draw: real, now: int,
                             expiryMinutes: int)
    requires 0.0 <= draw < 1.0
    requires SendOtpGuard(email).Some?
    ensures var r := AuthController.ForgotPassword(users, SendOtpGuard(email).value, draw, now, expiryMinutes);
            && (r.Ok? <==> AuthController.EmailTaken(users, email))
            && (r.Err? ==> r.failure == NotFound("User not found"))
  {
  }
}

=== FILE: live_detection.dfy ===
/** The live camera detector of backend/ml-service/live_detection.py: `is_animal`, the
    per-track alert cooldown in `detect` and the statistics it keeps. Time is in whole
    seconds; inference, clips, uploads and HTTP are replaced by their inputs. */
module LiveDetection {
  import opened Wrappers
  import opened Text
  import opened Seqs

  /** `animal_classes`. */
  const AnimalClasses: set<string> := {"porcupine", "animal_redfox", "hyena", "tiger"}

  /** `track_cooldown_sec` as configured by the detector's entry point. */
  const TrackCooldown := 20

  /** Detection runs on every fifth frame. */
  const DetectEvery := 5

  /** `is_animal`: case-insensitive membership in the animal classes. */
  predicate IsAnimal(className: string): (b: bool)
    ensures b ==> |className| >= 5
  {
    Lower(className) in AnimalClasses
  }

  lemma IsAnimalIgnoresCase(className: string)
    ensures IsAnimal(className) <==> IsAnimal(Lower(className))
  {
    assert Lower(Lower(className)) == Lower(className);
  }

  /** A tracked box from the model: its class name and, when the tracker gave one, its id. */
  datatype Box = Box(className: string, trackId: Option<int>)

  /** One entry of `detections`. */
  datatype Detection = Detection(trackId: int, animal: string)

  /** A box without a tracker id is filed under track -1. */
  function TrackOf(b: Box): (t: int)
    ensures b.trackId.None? ==> t == -1
    ensures b.trackId.Some? ==> t == b.trackId.value
  {
    match b.trackId
    case Some(id) => id
    case None => -1
  }

  /** The animal boxes of a frame as detections, in box order. */
  function Detections(boxes: seq<Box>): (r: seq<Detection>)
    ensures var animals := Filter((b: Box) => IsAnimal(b.className), boxes);
            |r| == |animals| && forall i :: 0 <= i < |r| ==> r[i] == Detection(TrackOf(animals[i]), animals[i].className)
  {
    var animals := Filter((b: Box) => IsAnimal(b.className), boxes);
    seq(|animals|, i requires 0 <= i < |animals| => Detection(TrackOf(animals[i]), animals[i].className))
  }

  // ---------------------------------------------------------------------------
  // Per-class counts
  // ---------------------------------------------------------------------------

  /** One entry of `animal_counts`; the dictionary keeps insertion order. */
  datatype Count = Count(name: string, n: nat)

  function Total(counts: seq<Count>): nat
    decreases |counts|
  {
    if |counts| == 0 then 0 else counts[0].n + Total(counts[1..])
  }

  /** `animal_counts.get(name, 0)`. */
  function CountOf(counts: seq<Count>, name: string): nat
    decreases |counts|
  {
    if |counts| == 0 then 0
    else if counts[0].name == name then counts[0].n
    else CountOf(counts[1..], name)
  }

  /** `animal_counts[name] = animal_counts.get(name, 0) + 1`: the entry for `name` goes up
      by one (a new key goes last), every other entry keeps its count, and the grand
      total goes up by one. */
  function Bump(counts: seq<Count>, name: string): (r: seq<Count>)
    ensures Total(r) == Total(counts) + 1
    ensures CountOf(r, name) == CountOf(counts, name) + 1
    ensures forall other :: other != name ==> CountOf(r, other) == CountOf(counts, other)
    decreases |counts|
  {
    if |counts| == 0 then [Count(name, 1)]
    else if counts[0].name == name then [counts[0].(n := counts[0].n + 1)] + counts[1..]
    else
      var rest := Bump(counts[1..], name);
      assert ([counts[0]] + rest)[1..] == rest;
      [counts[0]] + rest
  }

  datatype Stats = Stats(totalFrames: nat, totalDetections: nat, animalCounts: seq<Count>, alertsSent: nat)

  /** The per-class counts always add up to the detection total. */
  predicate Balanced(s: Stats) {
    Total(s.animalCounts) == s.totalDetections
  }

  /** The number of detections of class `name`. */
  function OfClass(dets: seq<Detection>, name: string): nat {
    |Filter((d: Detection) => d.animal == name, dets)|
  }

  /** Counting the animal detections of one frame, one at a time. */
  function CountDetections(s: Stats, dets: seq<Detection>): (r: Stats)
    ensures r.totalDetections == s.totalDetections + |dets|
    ensures Total(r.animalCounts) == Total(s.animalCounts) + |dets|
    ensures r.totalFrames == s.totalFrames && r.alertsSent == s.alertsSent
    ensures forall name :: CountOf(r.animalCounts, name) == CountOf(s.animalCounts, name) + OfClass(dets, name)
    decreases |dets|
  {
    if |dets| == 0 then s
    else
      CountDetections(s.(totalDetections := s.totalDetections + 1,
                         animalCounts := Bump(s.animalCounts, dets[0].animal)), dets[1..])
  }

  // ---------------------------------------------------------------------------
  // Track cooldown
  // ---------------------------------------------------------------------------

  /** `active_tracks`: the time of the last alert for each track. */
  type Tracks = map<int, int>

  /** A detection may alert when its track is unseen or its last alert is more than the
      cooldown ago. */
  predicate Fires(tracks: Tracks, trackId: int, now: int) {
    trackId !in tracks || now - tracks[trackId] > TrackCooldown
  }

  function TrackIds(ds: seq<Detection>): set<int>
    decreases |ds|
  {
    if |ds| == 0 then {} else {ds[0].trackId} + TrackIds(ds[1..])
  }

  /** The position of the first detection of track `t`. */
  function FirstOf(ds: seq<Detection>, t: int): (i: nat)
    requires t in TrackIds(ds)
    ensures i < |ds| && ds[i].trackId == t
    ensures forall k :: 0 <= k < i ==> ds[k].trackId != t
    decreases |ds|
  {
    if ds[0].trackId == t then 0
    else
      assert forall i :: 1 <= i < |ds| ==> ds[i] == ds[1..][i - 1];
      1 + FirstOf(ds[1..], t)
  }

  /** The tracks of the detections in `ds` that may alert against `tracks`. */
  function FiringTracks(tracks: Tracks, ds: seq<Detection>, now: int): set<int> {
    set i | 0 <= i < |ds| && Fires(tracks, ds[i].trackId, now) :: ds[i].trackId
  }

  datatype CooldownResult = CooldownResult(tracks: Tracks, valid: seq<Detection>)

  /** The alert loop of `detect`: detections are examined in order; one that fires is kept
      and stamps its track with `now`, one that does not is dropped and leaves its track's
      time alone. */
  function Cooldown(tracks: Tracks, ds: seq<Detection>, now: int): (r: CooldownResult)
    ensures SubsequenceOf(r.valid, ds)
    ensures forall i :: 0 <= i < |r.valid| ==> Fires(tracks, r.valid[i].trackId, now)
    ensures forall i, j :: 0 <= i < j < |r.valid| ==> r.valid[i].trackId != r.valid[j].trackId
    ensures |r.valid| > 0 <==> exists i :: 0 <= i < |ds| && Fires(tracks, ds[i].trackId, now)
    ensures r.tracks.Keys == tracks.Keys + TrackIds(r.valid)
    ensures forall t :: t in r.tracks ==> r.tracks[t] == if t in TrackIds(r.valid) then now else tracks[t]
    decreases |ds|
  {
    if |ds| == 0 then CooldownResult(tracks, [])
    else
      var d := ds[0];
      if Fires(tracks, d.trackId, now) then
        var rest := Cooldown(tracks[d.trackId := now], ds[1..], now);
        var valid := [d] + rest.valid;
        assert valid[1..] == rest.valid;
        CooldownResult(rest.tracks, valid)
      else
        var rest := Cooldown(tracks, ds[1..], now);
        assert forall i :: 1 <= i < |ds| ==> ds[i] == ds[1..][i - 1];
        rest
  }

  /** The converse of `Cooldown`'s contract: the tracks kept are exactly the tracks that
      may alert, so no firing detection is lost. */
  lemma {:induction false} CooldownKeepsEveryFiringTrack(tracks: Tracks, ds: seq<Detection>, now: int)
    ensures TrackIds(Cooldown(tracks, ds, now).valid) == FiringTracks(tracks, ds, now)
    decreases |ds|
  {
    if |ds| > 0 {
      var d, tail := ds[0], ds[1..];
      assert ds == [d] + tail;
      if Fires(tracks, d.trackId, now) {
        CooldownKeepsEveryFiringTrack(tracks[d.trackId := now], tail, now);
        FiringStep(tracks, d, tail, now);
      } else {
        CooldownKeepsEveryFiringTrack(tracks, tail, now);
        SilentStep(tracks, d, tail, now);
      }
    }
  }

  /** What `Cooldown` keeps for a track is the track's first detection in the frame. */
  lemma {:induction false} CooldownKeepsFirstSighting(tracks: Tracks, ds: seq<Detection>, now: int)
    ensures forall k :: k in Cooldown(tracks, ds, now).valid ==> k.trackId in TrackIds(ds) && k == ds[FirstOf(ds, k.trackId)]
    decreases |ds|
  {
    if |ds| > 0 {
      var d, tail := ds[0], ds[1..];
      var r := Cooldown(tracks, ds, now);
      var tracks' := if Fires(tracks, d.trackId, now) then tracks[d.trackId := now] else tracks;
      CooldownKeepsFirstSighting(tracks', tail, now);
      var rest := Cooldown(tracks', tail, now);
      assert r.valid == (if Fires(tracks, d.trackId, now) then [d] else []) + rest.valid;
      forall k | k in r.valid
        ensures k.trackId in TrackIds(ds) && k == ds[FirstOf(ds, k.trackId)]
      {
        if k != d || !Fires(tracks, d.trackId, now) {
          assert k in rest.valid;
          var n := FirstOf(tail, k.trackId);
          assert Fires(tracks', k.trackId, now);
          assert k.trackId != d.trackId;
          assert FirstOf(ds, k.trackId) == 1 + n;
        }
      }
    }
  }

  /** Stamping a firing track silences it for the rest of the frame and changes nothing
      for the other tracks. */
  lemma FiringStep(tracks: Tracks, d: Detection, tail: seq<Detection>, now: int)
    requires Fires(tracks, d.trackId, now)
    ensures FiringTracks(tracks, [d] + tail, now) == {d.trackId} + FiringTracks(tracks[d.trackId := now], tail, now)
  {
    var ds := [d] + tail;
    var tracks' := tracks[d.trackId := now];
    forall t | t in FiringTracks(tracks, ds, now)
      ensures t in {d.trackId} + FiringTracks(tracks', tail, now)
    {
      var i :| 0 <= i < |ds| && Fires(tracks, ds[i].trackId, now) && ds[i].trackId == t;
      if t != d.trackId {
        assert i > 0 && ds[i] == tail[i - 1];
      }
    }
    forall t | t in FiringTracks(tracks', tail, now)
      ensures t in FiringTracks(tracks, ds, now)
    {
      var i :| 0 <= i < |tail| && Fires(tracks', tail[i].trackId, now) && tail[i].trackId == t;
      assert ds[i + 1] == tail[i];
    }
    assert ds[0] == d;
  }

  /** A detection that may not alert adds nothing to the firing tracks. */
  lemma SilentStep(tracks: Tracks, d: Detection, tail: seq<Detection>, now: int)
    requires !Fires(tracks, d.trackId, now)
    ensures FiringTracks(tracks, [d] + tail, now) == FiringTracks(tracks, tail, now)
  {
    var ds := [d] + tail;
    forall t | t in FiringTracks(tracks, ds, now)
      ensures t in FiringTracks(tracks, tail, now)
    {
      var i :| 0 <= i < |ds| && Fires(tracks, ds[i].trackId, now) && ds[i].trackId == t;
      assert i > 0 && ds[i] == tail[i - 1];
    }
    forall t | t in FiringTracks(tracks, tail, now)
      ensures t in FiringTracks(tracks, ds, now)
    {
      var i :| 0 <= i < |tail| && Fires(tracks, tail[i].trackId, now) && tail[i].trackId == t;
      assert ds[i + 1] == tail[i];
    }
  }

  /** Boxes the tracker could not identify share track -1, so a frame of them yields at
      most one alert. */
  lemma UntrackedShareOneCooldown(tracks: Tracks, boxes: seq<Box>, now: int)
    requires forall i :: 0 <= i < |boxes| ==> boxes[i].trackId.None?
    ensures |Cooldown(tracks, Detections(boxes), now).valid| <= 1
  {
    var ds := Detections(boxes);
    var animals := Filter((b: Box) => IsAnimal(b.className), boxes);
    SubsequenceMembers(animals, boxes);
    assert forall i :: 0 <= i < |ds| ==> ds[i].trackId == -1 by {
      forall i | 0 <= i < |ds| ensures ds[i].trackId == -1 {
        assert animals[i] in boxes;
      }
    }
    var valid := Cooldown(tracks, ds, now).valid;
    SubsequenceMembers(valid, ds);
    if |valid| > 1 {
      assert false;
    }
  }

  /** The cooldown runs from the last alert, not the last sighting: a track alerting at
      `t0` and seen again at `t1` within the cooldown stays silent then, and alerts at
      `t2` once the cooldown since `t0` has passed, however recent `t1` was. */
  lemma CooldownRunsFromLastAlert(tracks: Tracks, d: Detection, t0: int, t1: int, t2: int)
    requires Fires(tracks, d.trackId, t0)
    requires t1 - t0 <= TrackCooldown && t2 - t0 > TrackCooldown
    ensures var a := Cooldown(tracks, [d], t0);
            && a.valid == [d]
            && var b := Cooldown(a.tracks, [d], t1);
            && b.valid == []
            && Cooldown(b.tracks, [d], t2).valid == [d]
  {
  }

  // ---------------------------------------------------------------------------
  // The frame loop
  // ---------------------------------------------------------------------------

  datatype Detector = Detector(frameCount: nat, tracks: Tracks, stats: Stats)

  /** A frame as the loop sees it: its boxes, the clock when the alert loop starts, and
      the backend's status for each alert posted (a missing status is a failed post). */
  datatype Frame = Frame(boxes: seq<Box>, now: int, responses: seq<int>)

  function Min(a: nat, b: nat): nat {
    if a <= b then a else b
  }

  /** The backend's answer to a stored alert. */
  predicate Created(code: int) {
    code == 201
  }

  /** The number of the first `n` posts that the backend answered with 201. */
  function Delivered(responses: seq<int>, n: nat): (k: nat)
    ensures k <= n && k <= |responses|
    ensures k == 0 <==> forall i :: 0 <= i < n && i < |responses| ==> responses[i] != 201
    ensures n <= |responses| && (forall i :: 0 <= i < n ==> responses[i] == 201) ==> k == n
    decreases n
  {
    if n == 0 || |responses| == 0 then 0
    else (if responses[0] == 201 then 1 else 0) + Delivered(responses[1..], n - 1)
  }

  /** `Delivered` is exactly the number of 201 answers among the first `n` posts. */
  lemma {:induction false} DeliveredCountsCreated(responses: seq<int>, n: nat)
    ensures Delivered(responses, n) == |Filter(Created, responses[..Min(n, |responses|)])|
    decreases n
  {
    if n > 0 && |responses| > 0 {
      var prefix := responses[..Min(n, |responses|)];
      var tail := responses[1..][..Min(n - 1, |responses| - 1)];
      assert prefix[0] == responses[0] && prefix[1..] == tail by {
        assert |prefix| > 0;
      }
      DeliveredCountsCreated(responses[1..], n - 1);
      calc {
        |Filter(Created, prefix)|;
        { FilterCons(Created, prefix); }
        |(if Created(responses[0]) then [responses[0]] else []) + Filter(Created, tail)|;
        (if responses[0] == 201 then 1 else 0) + Delivered(responses[1..], n - 1);
      }
    }
  }

  /** One iteration of the loop in `detect`. */
  function OnFrame(d: Detector, f: Frame): (r: Detector)
    ensures r.frameCount == d.frameCount + 1
    ensures r.stats.totalFrames == d.stats.totalFrames + 1
    ensures r.frameCount % DetectEvery != 0 ==> r == d.(frameCount := r.frameCount, stats := r.stats)
    ensures r.frameCount % DetectEvery != 0 ==> r.stats == d.stats.(totalFrames := r.stats.totalFrames)
    ensures r.frameCount % DetectEvery == 0 ==>
              r.stats.totalDetections == d.stats.totalDetections + |Detections(f.boxes)|
    ensures r.frameCount % DetectEvery == 0 ==>
              var c := Cooldown(d.tracks, Detections(f.boxes), f.now);
              && r.tracks == c.tracks
              && r.stats.alertsSent == d.stats.alertsSent + Delivered(f.responses, |c.valid|)
    ensures r.stats.alertsSent >= d.stats.alertsSent
    ensures Balanced(d.stats) ==> Balanced(r.stats)
  {
    var fc := d.frameCount + 1;
    var stats := d.stats.(totalFrames := d.stats.totalFrames + 1);
    if fc % DetectEvery != 0 then Detector(fc, d.tracks, stats)
    else
      var dets := Detections(f.boxes);
      var counted := CountDetections(stats, dets);
      var c := Cooldown(d.tracks, dets, f.now);
      var sent := if |c.valid| > 0 then Delivered(f.responses, |c.valid|) else 0;
      Detector(fc, c.tracks, counted.(alertsSent := counted.alertsSent + sent))
  }

  function Run(d: Detector, frames: seq<Frame>): Detector
    decreases |frames|
  {
    if |frames| == 0 then d else Run(OnFrame(d, frames[0]), frames[1..])
  }

  /** Every frame is counted, whether or not it went through detection. */
  lemma {:induction false} RunCountsEveryFrame(d: Detector, frames: seq<Frame>)
    ensures Run(d, frames).stats.totalFrames == d.stats.totalFrames + |frames|
    ensures Run(d, frames).frameCount == d.frameCount + |frames|
    decreases |frames|
  {
    if |frames| > 0 {
      RunCountsEveryFrame(OnFrame(d, frames[0]), frames[1..]);
    }
  }

  /** The per-class counts add up to the detection total after any run that starts
      balanced, as the detector's initial statistics are. */
  lemma {:induction false} RunKeepsCountsBalanced(d: Detector, frames: seq<Frame>)
    requires Balanced(d.stats)
    ensures Balanced(Run(d, frames).stats)
    decreases |frames|
  {
    if |frames| > 0 {
      RunKeepsCountsBalanced(OnFrame(d, frames[0]), frames[1..]);
    }
  }

  /** The detector's state when `detect` starts. */
  function Initial(): (d: Detector)
    ensures Balanced(d.stats) && d.frameCount == 0 && d.tracks == map[]
  {
    Detector(0, map[], Stats(0, 0, [], 0))
  }
}

=== FILE: ngo_info.dfy ===
/** The citizen's NGO directory, AniResQ/app/citizen/ngoinfo.jsx, with the list it is
    fed by `getAllNGOs` in backend/src/controller/authcontroller.js. */
module NgoInfo {
  import opened Wrappers
  import opened Ids
  import opened Text
  import opened Seqs
  import opened UserModel

  // ---------------------------------------------------------------------------
  // getInitials
  // ---------------------------------------------------------------------------

  /** `s.split(" ")`: the pieces between single spaces, empty pieces included; there is
      always at least one. */
  function Split(s: string): (r: seq<string>)
    ensures |r| >= 1
    ensures forall i :: 0 <= i < |r| ==> ' ' !in r[i]
    decreases |s|
  {
    if |s| == 0 then [""]
    else if s[0] == ' ' then [""] + Split(s[1..])
    else
      var rest := Split(s[1..]);
      [[s[0]] + rest[0]] + rest[1..]
  }

  /** The pieces joined back with single spaces. */
  function JoinWithSpaces(words: seq<string>): string
    requires |words| >= 1
    decreases |words|
  {
    if |words| == 1 then words[0] else words[0] + " " + JoinWithSpaces(words[1..])
  }

  /** Splitting loses nothing: joining the pieces with spaces gives the string back. */
  lemma {:induction false} SplitJoinRoundTrip(s: string)
    ensures JoinWithSpaces(Split(s)) == s
    decreases |s|
  {
    if |s| > 0 {
      SplitJoinRoundTrip(s[1..]);
      var rest := Split(s[1..]);
      if s[0] == ' ' {
        assert ([""] + rest)[1..] == rest;
      } else {
        var r := [[s[0]] + rest[0]] + rest[1..];
        if |rest| > 1 {
          assert r[1..] == rest[1..];
          assert rest == [rest[0]] + rest[1..];
          assert JoinWithSpaces(rest) == rest[0] + " " + JoinWithSpaces(rest[1..]);
        }
        assert s == [s[0]] + s[1..];
      }
    }
  }

  /** `.map(word => word[0]).join("")`: the first character of each non-empty piece (an
      empty piece contributes `undefined`, which joins as nothing). */
  function FirstChars(words: seq<string>): string
    decreases |words|
  {
    if |words| == 0 then ""
    else (if |words[0]| > 0 then [words[0][0]] else "") + FirstChars(words[1..])
  }

  /** Independent reading: the characters of `s` that are not spaces and either open the
      string or follow a space. `atStart` says whether the previous character was a space
      (or there was none). */
  function WordStarts(s: string, atStart: bool): string
    decreases |s|
  {
    if |s| == 0 then ""
    else if s[0] == ' ' then WordStarts(s[1..], true)
    else (if atStart then [s[0]] else "") + WordStarts(s[1..], false)
  }

  /** The first characters of the pieces are exactly the word starts; the second claim,
      about the pieces after the first, carries the induction. */
  lemma {:induction false} FirstCharsAreWordStarts(s: string)
    ensures FirstChars(Split(s)) == WordStarts(s, true)
    ensures FirstChars(Split(s)[1..]) == WordStarts(s, false)
    decreases |s|
  {
    if |s| > 0 {
      FirstCharsAreWordStarts(s[1..]);
      var rest := Split(s[1..]);
      if s[0] == ' ' {
        assert ([""] + rest)[1..] == rest;
      } else {
        var r := [[s[0]] + rest[0]] + rest[1..];
        assert r[1..] == rest[1..];
      }
    }
  }

  /** `getInitials`: the upper-cased first characters of the space-separated words, in
      order, cut to two characters. */
  function Initials(name: string): (r: string)
    ensures |r| <= 2
    ensures var starts := Upper(WordStarts(name, true));
            r == starts[..if |starts| < 2 then |starts| else 2]
    ensures name == "" ==> r == ""
  {
    FirstCharsAreWordStarts(name);
    var all := Upper(FirstChars(Split(name)));
    all[..if |all| < 2 then |all| else 2]
  }

  lemma InitialsOfTwoWords()
    ensures Initials("blue cross") == "BC"
  {
  }

  lemma InitialsOfOneWord()
    ensures Initials("paws") == "P"
  {
  }

  // ---------------------------------------------------------------------------
  // The list and its filter
  // ---------------------------------------------------------------------------

  /** `getAllNGOs`: the NGOs that are not blacklisted, in collection order; an empty
      result is answered with 404. */
  function GetAllNgos(users: seq<User>): (r: Result<seq<User>>)
    ensures r.Err? <==> Filter((u: User) => u.role == Ngo && !u.isBlacklisted, users) == []
    ensures r.Err? ==> r.failure == NotFound("No NGOs found")
    ensures r.Ok? ==> SubsequenceOf(r.value, users)
    ensures r.Ok? ==> forall i :: 0 <= i < |r.value| ==> r.value[i].role == Ngo && !r.value[i].isBlacklisted
    ensures r.Ok? ==> forall i :: 0 <= i < |users| && users[i].role == Ngo && !users[i].isBlacklisted ==> users[i] in r.value
  {
    var ngos := Filter((u: User) => u.role == Ngo && !u.isBlacklisted, users);
    if ngos == [] then Err(NotFound("No NGOs found")) else Ok(ngos)
  }

  /** The fields of a card the screen's logic looks at. */
  datatype NgoCard = NgoCard(name: string, about: string, verified: bool, activeCases: nat, image: string)

  /** The formatting in `fetchNGOs`: an NGO is verified exactly when it is not
      blacklisted, and the active-case count is always 0. */
  function ToCard(u: User): (c: NgoCard)
    ensures c.verified <==> !u.isBlacklisted
    ensures c.activeCases == 0
    ensures c.name == u.name
  {
    NgoCard(u.name, if u.aboutus != "" then u.aboutus else "No description", !u.isBlacklisted, 0,
            u.image.GetOr(""))
  }

  function ToCards(users: seq<User>): (r: seq<NgoCard>)
    ensures |r| == |users| && forall i :: 0 <= i < |r| ==> r[i] == ToCard(users[i])
  {
    seq(|users|, i requires 0 <= i < |users| => ToCard(users[i]))
  }

  /** The predicate of `filteredData` for one chip value. */
  predicate Keep(filter: string, c: NgoCard) {
    if filter == "verified" then c.verified
    else if filter == "unverified" then !c.verified
    else if filter == "active" then c.activeCases > 0
    else true
  }

  /** `filteredData`: an order-preserving sub-list of the cards, keeping a card exactly
      when the chip's predicate holds. */
  function FilterCards(cards: seq<NgoCard>, filter: string): (r: seq<NgoCard>)
    ensures SubsequenceOf(r, cards)
    ensures forall i :: 0 <= i < |r| ==> Keep(filter, r[i])
    ensures forall i :: 0 <= i < |cards| && Keep(filter, cards[i]) ==> cards[i] in r
    ensures filter !in {"verified", "unverified", "active"} ==> r == cards
  {
    var r := Filter((c: NgoCard) => Keep(filter, c), cards);
    if filter !in {"verified", "unverified", "active"} then
      FilterAll((c: NgoCard) => Keep(filter, c), cards);
      r
    else r
  }

  /** The "verified" and "unverified" chips split the list: every card is in exactly one. */
  lemma {:induction false} VerifiedChipsPartition(cards: seq<NgoCard>)
    ensures multiset(FilterCards(cards, "verified")) + multiset(FilterCards(cards, "unverified")) == multiset(cards)
    ensures |FilterCards(cards, "verified")| + |FilterCards(cards, "unverified")| == |cards|
  {
    FilterPartition((c: NgoCard) => Keep("verified", c), (c: NgoCard) => Keep("unverified", c), cards);
  }

  /** With the cards the screen builds, the "active" chip always shows nothing. */
  lemma {:induction false} ActiveChipAlwaysEmpty(users: seq<User>)
    ensures FilterCards(ToCards(users), "active") == []
  {
    FilterNone((c: NgoCard) => Keep("active", c), ToCards(users));
  }

  /** Fed by `getAllNGOs`, every card is verified: the "unverified" chip shows nothing and
      the "verified" chip shows everything. */
  lemma {:induction false} DirectoryHasOnlyVerified(users: seq<User>)
    requires GetAllNgos(users).Ok?
    ensures var cards := ToCards(GetAllNgos(users).value);
            && FilterCards(cards, "unverified") == []
            && FilterCards(cards, "verified") == cards
  {
    var cards := ToCards(GetAllNgos(users).value);
    FilterNone((c: NgoCard) => Keep("unverified", c), cards);
    FilterAll((c: NgoCard) => Keep("verified", c), cards);
  }
}

=== FILE: report_controller.dfy ===
/** The report handlers of backend/src/controller/reportController.js, each a pure
    transition over the report store that answers with the failure the handler
    sends or with the store it saves. Uploads happen before the store is touched
    and are given as the URLs they produced. */
module ReportController {
  import opened Wrappers
  import opened Ids
  import opened ReportModel

  // ---------------------------------------------------------------------------
  // createReport
  // ---------------------------------------------------------------------------

  /** The multipart body fields of a new report, already parsed; an absent field is None. */
  datatype ReportForm = ReportForm(
    incidentDate: Option<int>,
    address: Option<string>,
    latitude: Option<real>,
    longitude: Option<real>,
    animalType: Option<string>,
    behavior: Option<string>,
    injured: Option<string>,
    humanHarm: Option<string>)

  /** An absent enumerated field passes its validator; a present one must be a member. */
  predicate ValidOptional(s: Option<string>, valid: string -> bool) {
    s.None? || valid(s.value)
  }

  predicate FormEnumsValid(f: ReportForm) {
    && ValidOptional(f.animalType, s => ParseAnimalType(s).Some?)
    && ValidOptional(f.behavior, s => ParseBehavior(s).Some?)
    && ValidOptional(f.injured, s => ParseInjury(s).Some?)
    && ValidOptional(f.humanHarm, s => ParseHumanHarm(s).Some?)
  }

  function ParseOptional<T>(s: Option<string>, parse: string -> Option<T>): Option<T> {
    if s.Some? then parse(s.value) else None
  }

  /** `createReport`: stores the caller as the reporter and the coordinates exactly as
      given, with no range check; the image is the upload's URL, or absent when no file
      was sent. An enumerated field outside its enum fails the schema's validation, which
      the handler's catch answers with 500. */
  function CreateReport(store: ReportStore, caller: Id, form: ReportForm,
                        image: Option<string>, freshId: Id): (r: Result<ReportStore>)
    ensures r.Ok? <==> freshId !in store && FormEnumsValid(form)
    ensures r.Err? ==> r.failure.Code() == 500
    ensures r.Ok? ==> r.value.Keys == store.Keys + {freshId}
    ensures r.Ok? ==> forall id :: id in store ==> r.value[id] == store[id]
    ensures r.Ok? ==>
      var rep := r.value[freshId];
      && rep.user == caller
      && rep.location.latitude == form.latitude
      && rep.location.longitude == form.longitude
      && rep.incidentDate == form.incidentDate && rep.address == form.address
      && rep.image == image
      && (rep.animalType.Some? <==> form.animalType.Some?)
      && (rep.animalType.Some? ==> rep.animalType.value.Name() == form.animalType.value)
      && (rep.behavior.Some? <==> form.behavior.Some?)
      && (rep.behavior.Some? ==> rep.behavior.value.Name() == form.behavior.value)
      && (rep.injured.Some? <==> form.injured.Some?)
      && (rep.injured.Some? ==> rep.injured.value.Name() == form.injured.value)
      && (rep.humanHarm.Some? <==> form.humanHarm.Some?)
      && (rep.humanHarm.Some? ==> rep.humanHarm.value.Name() == form.humanHarm.value)
      && rep.status == StatusPending && rep.adminStatus == AdminPending
      && rep.acceptedBy.None? && rep.updates == []
  {
    if freshId in store then Err(ServerError(DuplicateKey))
    else if !FormEnumsValid(form) then Err(ServerError("Report validation failed"))
    else
      var rep := Report(
        caller, form.incidentDate, form.address,
        Location(form.latitude, form.longitude),
        ParseOptional(form.animalType, ParseAnimalType),
        ParseOptional(form.behavior, ParseBehavior),
        ParseOptional(form.injured, ParseInjury),
        ParseOptional(form.humanHarm, ParseHumanHarm),
        image, StatusPending, AdminPending, None, []);
      Ok(store[freshId := rep])
  }

  // ---------------------------------------------------------------------------
  // acceptReport
  // ---------------------------------------------------------------------------

  const AlreadyAccepted: string := "Already accepted by another NGO"

  /** `acceptReport`: an unknown id is not found; a report whose status is already
      "Accepted" is refused and nothing changes; otherwise exactly `status` and
      `acceptedBy` change. The check and the save are two steps, so this describes one
      request at a time only. */
  function AcceptReport(store: ReportStore, id: Id, caller: Id): (r: Result<ReportStore>)
    ensures id !in store ==> r == Err(NotFound("Report not found"))
    ensures id in store && store[id].status == StatusAccepted ==> r == Err(BadRequest(AlreadyAccepted))
    ensures r.Ok? <==> id in store && store[id].status != StatusAccepted
    ensures r.Ok? ==> r.value.Keys == store.Keys
    ensures r.Ok? ==> forall other :: other in store && other != id ==> r.value[other] == store[other]
    ensures r.Ok? ==> r.value[id].status == StatusAccepted && r.value[id].acceptedBy == Some(caller)
    ensures r.Ok? ==> r.value[id].(status := store[id].status, acceptedBy := store[id].acceptedBy) == store[id]
  {
    if id !in store then Err(NotFound("Report not found"))
    else if store[id].status == StatusAccepted then Err(BadRequest(AlreadyAccepted))
    else Ok(store[id := store[id].(status := StatusAccepted, acceptedBy := Some(caller))])
  }

  // ---------------------------------------------------------------------------
  // getReportsByRadius
  // ---------------------------------------------------------------------------

  /** Query parameters after `parseFloat`; None stands for NaN. */
  datatype RadiusQuery = RadiusQuery(latitude: Option<real>, longitude: Option<real>, radius: Option<real>)

  /** JavaScript truthiness of a parsed number: NaN and 0 are falsy. */
  predicate NumberTruthy(x: Option<real>) {
    x.Some? && x.value != 0.0
  }

  predicate QueryAccepted(q: RadiusQuery) {
    NumberTruthy(q.latitude) && NumberTruthy(q.longitude) && NumberTruthy(q.radius)
  }

  /** Metres per degree in the planar approximation. */
  const MetresPerDegree: real := 111000.0

  function Abs(x: real): real {
    if x < 0.0 then -x else x
  }

  /** Not accepted by anyone, not moderated, still pending. */
  predicate Unclaimed(rep: Report) {
    rep.adminStatus == AdminPending && rep.status == StatusPending && rep.acceptedBy.None?
  }

  /** The query filter as the handler writes it: `$gte`/`$lte` bounds on both axes. A
      report without a stored coordinate does not satisfy a range condition. */
  predicate InBoundingBox(loc: Location, lat: real, lon: real, radius: real) {
    && loc.latitude.Some? && loc.longitude.Some?
    && lat - radius / MetresPerDegree <= loc.latitude.value <= lat + radius / MetresPerDegree
    && lon - radius / MetresPerDegree <= loc.longitude.value <= lon + radius / MetresPerDegree
  }

  predicate MatchesRadius(rep: Report, lat: real, lon: real, radius: real) {
    Unclaimed(rep) && InBoundingBox(rep.location, lat, lon, radius)
  }

  /** `getReportsByRadius`: refuses unless all three parameters are nonzero numbers, and
      otherwise returns exactly the unclaimed reports whose coordinates each differ from
      the query's by at most radius/111000 degrees. */
  function ReportsByRadius(store: ReportStore, q: RadiusQuery): (r: Result<ReportStore>)
    ensures r.Err? <==> !QueryAccepted(q)
    ensures r.Err? ==> r.failure == BadRequest("Latitude, Longitude and Radius are required")
    ensures r.Ok? ==> forall id :: id in r.value ==> id in store && r.value[id] == store[id]
    ensures r.Ok? ==> forall id :: id in store ==>
      (id in r.value <==>
        && Unclaimed(store[id])
        && store[id].location.latitude.Some? && store[id].location.longitude.Some?
        && Abs(store[id].location.latitude.value - q.latitude.value) <= q.radius.value / MetresPerDegree
        && Abs(store[id].location.longitude.value - q.longitude.value) <= q.radius.value / MetresPerDegree)
  {
    if !QueryAccepted(q) then Err(BadRequest("Latitude, Longitude and Radius are required"))
    else
      var lat, lon, radius := q.latitude.value, q.longitude.value, q.radius.value;
      Ok(map id | id in store && MatchesRadius(store[id], lat, lon, radius) :: store[id])
  }

  /** A query at latitude 0 or longitude 0, or with a NaN parameter, is refused. */
  lemma ZeroOrNaNQueryRefused(store: ReportStore, q: RadiusQuery)
    requires q.latitude == Some(0.0) || q.longitude == Some(0.0) || q.radius == Some(0.0)
          || q.latitude.None? || q.longitude.None? || q.radius.None?
    ensures ReportsByRadius(store, q).Err?
  {
  }

  /** A negative radius makes the box empty, so nothing is returned. */
  lemma NegativeRadiusFindsNothing(store: ReportStore, q: RadiusQuery)
    requires QueryAccepted(q) && q.radius.value < 0.0
    ensures ReportsByRadius(store, q) == Ok(map[])
  {
  }

  /** A report that is accepted, or moderated, is never returned whatever its distance. */
  lemma ClaimedNeverFound(store: ReportStore, q: RadiusQuery, id: Id)
    requires id in store && !Unclaimed(store[id])
    requires ReportsByRadius(store, q).Ok?
    ensures id !in ReportsByRadius(store, q).value
  {
  }

  /** Enlarging the radius never drops a report. */
  lemma RadiusMonotone(store: ReportStore, lat: real, lon: real, r1: real, r2: real)
    requires lat != 0.0 && lon != 0.0 && r1 != 0.0 && r2 != 0.0 && r1 <= r2
    ensures var small := ReportsByRadius(store, RadiusQuery(Some(lat), Some(lon), Some(r1)));
            var large := ReportsByRadius(store, RadiusQuery(Some(lat), Some(lon), Some(r2)));
            small.Ok? && large.Ok? && small.value.Keys <= large.value.Keys
  {
  }

  // ---------------------------------------------------------------------------
  // updateAcceptedReport
  // ---------------------------------------------------------------------------

  /** The body fields of an update; any of them may be absent. */
  datatype UpdateForm = UpdateForm(status: Option<string>, description: Option<string>,
                                   veterinaryNotes: Option<string>)

  const NotAuthorized: string := "Not authorized to update this report"

  /** The single-slot write: overwrite `updates[0]` (with a timestamp) when there is
      one, otherwise push the first entry (without one). */
  function WriteSlot(updates: seq<TreatmentUpdate>, form: UpdateForm, media: seq<string>, now: int)
    : (u: seq<TreatmentUpdate>)
    ensures |u| == if |updates| == 0 then 1 else |updates|
    ensures u[1..] == if |updates| == 0 then [] else updates[1..]
    ensures u[0].status == form.status && u[0].description == form.description
    ensures u[0].veterinaryNotes == form.veterinaryNotes && u[0].media == media
    ensures u[0].updatedAt == if |updates| == 0 then None else Some(now)
  {
    if |updates| > 0 then
      updates[0 := TreatmentUpdate(form.status, form.description, form.veterinaryNotes, media, Some(now))]
    else
      [TreatmentUpdate(form.status, form.description, form.veterinaryNotes, media, None)]
  }

  /** `updateAcceptedReport`: a missing report is not found; unless the caller is the
      accepting user the request is forbidden; otherwise only the first update slot is
      written, its media exactly the newly uploaded URLs. The status string is not
      checked by the server. */
  function UpdateAcceptedReport(store: ReportStore, id: Id, caller: Id, form: UpdateForm,
                                media: seq<string>, now: int): (r: Result<ReportStore>)
    ensures id !in store ==> r == Err(NotFound("Report not found"))
    ensures id in store && store[id].acceptedBy != Some(caller) ==> r == Err(Forbidden(NotAuthorized))
    ensures r.Ok? <==> id in store && store[id].acceptedBy == Some(caller)
    ensures r.Ok? ==> r.value.Keys == store.Keys
    ensures r.Ok? ==> forall other :: other in store && other != id ==> r.value[other] == store[other]
    ensures r.Ok? ==>
      var before, after := store[id], r.value[id];
      && after.(updates := before.updates) == before
      && |after.updates| == (if |before.updates| == 0 then 1 else |before.updates|)
      && (forall k :: 1 <= k < |before.updates| ==> after.updates[k] == before.updates[k])
      && after.updates[0].status == form.status
      && after.updates[0].description == form.description
      && after.updates[0].veterinaryNotes == form.veterinaryNotes
      && after.updates[0].media == media
  {
    if id !in store then Err(NotFound("Report not found"))
    else if store[id].acceptedBy.None? || store[id].acceptedBy.value != caller then Err(Forbidden(NotAuthorized))
    else
      var rep := store[id];
      Ok(store[id := rep.(updates := WriteSlot(rep.updates, form, media, now))])
  }

  /** Calling the update twice leaves the second call's values in the one slot, and
      the slot count is what the first call left. */
  lemma SecondUpdateWins(store: ReportStore, id: Id, caller: Id,
                                            f1: UpdateForm, m1: seq<string>, t1: int,
                                            f2: UpdateForm, m2: seq<string>, t2: int)
    requires UpdateAcceptedReport(store, id, caller, f1, m1, t1).Ok?
    ensures var s1 := UpdateAcceptedReport(store, id, caller, f1, m1, t1).value;
            var s2 := UpdateAcceptedReport(s1, id, caller, f2, m2, t2);
            && s2.Ok?
            && |s2.value[id].updates| == |s1[id].updates|
            && s2.value[id].updates[0] == TreatmentUpdate(f2.status, f2.description, f2.veterinaryNotes, m2, Some(t2))
  {
  }

  // ---------------------------------------------------------------------------
  // Moderation: updateAdminStatus, deleteFakeReport
  // ---------------------------------------------------------------------------

  /** `updateAdminStatus`: any supplied value replaces any prior one; nothing else changes. */
  function UpdateAdminStatus(store: ReportStore, id: Id, adminStatus: string): (r: Result<ReportStore>)
    ensures r.Err? <==> id !in store
    ensures r.Err? ==> r.failure == NotFound("Report not found")
    ensures r.Ok? ==> r.value.Keys == store.Keys
    ensures r.Ok? ==> forall other :: other in store && other != id ==> r.value[other] == store[other]
    ensures r.Ok? ==> r.value[id].adminStatus == adminStatus
    ensures r.Ok? ==> r.value[id].(adminStatus := store[id].adminStatus) == store[id]
  {
    if id !in store then Err(NotFound("Report not found"))
    else Ok(store[id := store[id].(adminStatus := adminStatus)])
  }

  /** `deleteFakeReport`: not found when missing, refused unless the moderation flag is
      "Fake", and otherwise exactly that report disappears. */
  function DeleteFakeReport(store: ReportStore, id: Id): (r: Result<ReportStore>)
    ensures id !in store ==> r == Err(NotFound("Report not found"))
    ensures id in store && store[id].adminStatus != AdminFake ==>
      r == Err(BadRequest("Only fake reports can be deleted"))
    ensures r.Ok? <==> id in store && store[id].adminStatus == AdminFake
    ensures r.Ok? ==> r.value.Keys == store.Keys - {id}
    ensures r.Ok? ==> forall other :: other in r.value ==> r.value[other] == store[other]
  {
    if id !in store then Err(NotFound("Report not found"))
    else if store[id].adminStatus != AdminFake then Err(BadRequest("Only fake reports can be deleted"))
    else Ok(store - {id})
  }

  /** Marking a report "Fake" is exactly what makes it deletable. */
  lemma {:induction false} MarkFakeThenDelete(store: ReportStore, id: Id)
    requires id in store
    ensures var marked := UpdateAdminStatus(store, id, AdminFake);
            && marked.Ok?
            && DeleteFakeReport(marked.value, id) == Ok(store - {id})
  {
    var marked := UpdateAdminStatus(store, id, AdminFake).value;
    assert marked - {id} == store - {id};
  }

  // ---------------------------------------------------------------------------
  // Listing handlers
  // ---------------------------------------------------------------------------

  /** `getReportById`. */
  function GetReportById(store: ReportStore, id: Id): (r: Result<Report>)
    ensures r.Ok? <==> id in store
    ensures r.Ok? ==> r.value == store[id]
    ensures r.Err? ==> r.failure == NotFound("Report not found")
  {
    if id in store then Ok(store[id]) else Err(NotFound("Report not found"))
  }

  /** `getAcceptedReports`: exactly the reports the caller accepted. */
  function AcceptedReports(store: ReportStore, caller: Id): (r: ReportStore)
    ensures forall id :: id in r <==> id in store && store[id].acceptedBy == Some(caller)
    ensures forall id :: id in r ==> r[id] == store[id]
  {
    map id | id in store && store[id].acceptedBy == Some(caller) :: store[id]
  }

  /** `getMyReports`: exactly the reports the caller created. */
  function MyReports(store: ReportStore, caller: Id): (r: ReportStore)
    ensures forall id :: id in r <==> id in store && store[id].user == caller
    ensures forall id :: id in r ==> r[id] == store[id]
  {
    map id | id in store && store[id].user == caller :: store[id]
  }

  /** A created report can be fetched by its id, and appears in its creator's list and in
      no one else's, while every other list keeps what it had. */
  lemma CreatedReportIsListed(store: ReportStore, caller: Id, form: ReportForm,
                              image: Option<string>, freshId: Id, other: Id)
    requires CreateReport(store, caller, form, image, freshId).Ok?
    requires other != caller
    ensures var after := CreateReport(store, caller, form, image, freshId).value;
            && GetReportById(after, freshId) == Ok(after[freshId])
            && GetReportById(after, freshId).value.user == caller
            && MyReports(after, caller) == MyReports(store, caller)[freshId := after[freshId]]
            && MyReports(after, other) == MyReports(store, other)
  {
  }

  /** Accepting a report moves it from the radius results to the acceptor's list. */
  lemma AcceptMovesReportToAcceptedList(store: ReportStore, id: Id, caller: Id, q: RadiusQuery)
    requires QueryAccepted(q)
    requires AcceptReport(store, id, caller).Ok?
    ensures var after := AcceptReport(store, id, caller).value;
            && id !in ReportsByRadius(after, q).value
            && id in AcceptedReports(after, caller)
  {
  }
}

=== FILE: report_lifecycle.dfy ===
/** Sequences of report requests: the dispatch invariants they keep, the
    single-acceptance guarantee for requests served one at a time, and the schema
    discrepancy of backend/src/model/report.js. */
module ReportLifecycle {
  import opened Wrappers
  import opened Ids
  import opened ReportModel
  import opened ReportController

  /** One request to the report handlers. */
  datatype Request =
    | Create(caller: Id, form: ReportForm, image: Option<string>, freshId: Id)
    | Accept(id: Id, caller: Id)
    | PostUpdate(id: Id, caller: Id, update: UpdateForm, media: seq<string>, now: int)
    | SetAdminStatus(id: Id, adminStatus: string)
    | DeleteFake(id: Id)

  function Outcome(store: ReportStore, req: Request): Result<ReportStore> {
    match req
    case Create(c, f, img, newId) => CreateReport(store, c, f, img, newId)
    case Accept(id, c) => AcceptReport(store, id, c)
    case PostUpdate(id, c, u, m, t) => UpdateAcceptedReport(store, id, c, u, m, t)
    case SetAdminStatus(id, a) => UpdateAdminStatus(store, id, a)
    case DeleteFake(id) => DeleteFakeReport(store, id)
  }

  /** Every handler answers a failure before saving, so a failed request leaves the store as it was. */
  function Step(store: ReportStore, req: Request): ReportStore {
    var r := Outcome(store, req);
    if r.Ok? then r.value else store
  }

  function Run(store: ReportStore, reqs: seq<Request>): ReportStore
    decreases |reqs|
  {
    if |reqs| == 0 then store else Run(Step(store, reqs[0]), reqs[1..])
  }

  /** A report has an acceptor exactly when its status is "Accepted". */
  ghost predicate AcceptorMatchesStatus(store: ReportStore) {
    forall id :: id in store ==> (store[id].acceptedBy.Some? <==> store[id].status == StatusAccepted)
  }

  lemma StepKeepsAcceptorMatchesStatus(store: ReportStore, req: Request)
    requires AcceptorMatchesStatus(store)
    ensures AcceptorMatchesStatus(Step(store, req))
  {
  }

  /** Once a report has an acceptor, no request changes that acceptor while the report
      exists, provided no later request creates a report under the same id (ObjectIds
      are never reused). */
  lemma StepKeepsAcceptor(store: ReportStore, req: Request, id: Id, ngo: Id)
    requires AcceptorMatchesStatus(store)
    requires id in store && store[id].acceptedBy == Some(ngo)
    requires id in Step(store, req)
    ensures Step(store, req)[id].acceptedBy == Some(ngo)
  {
  }

  /** Every report holds at most one treatment update: reports start with none and the
      update handler only ever writes slot 0. */
  ghost predicate SingleSlot(store: ReportStore) {
    forall id :: id in store ==> |store[id].updates| <= 1
  }

  lemma StepKeepsSingleSlot(store: ReportStore, req: Request)
    requires SingleSlot(store)
    ensures SingleSlot(Step(store, req))
  {
  }

  lemma {:induction false} RunKeepsSingleSlot(store: ReportStore, reqs: seq<Request>)
    requires SingleSlot(store)
    ensures SingleSlot(Run(store, reqs))
    decreases |reqs|
  {
    if |reqs| > 0 {
      StepKeepsSingleSlot(store, reqs[0]);
      RunKeepsSingleSlot(Step(store, reqs[0]), reqs[1..]);
    }
  }

  predicate CreatesId(req: Request, id: Id) {
    req.Create? && req.freshId == id
  }

  /** Exclusivity, for requests served one at a time: after any sequence of requests
      that does not recreate the id, a report that had an acceptor has the same one. */
  lemma {:induction false} AcceptorNeverReassigned(store: ReportStore, reqs: seq<Request>, id: Id, ngo: Id)
    requires AcceptorMatchesStatus(store)
    requires id in store && store[id].acceptedBy == Some(ngo)
    requires forall k :: 0 <= k < |reqs| ==> !CreatesId(reqs[k], id)
    requires id in Run(store, reqs)
    ensures Run(store, reqs)[id].acceptedBy == Some(ngo)
    decreases |reqs|
  {
    if |reqs| > 0 {
      var s := Step(store, reqs[0]);
      StepKeepsAcceptorMatchesStatus(store, reqs[0]);
      if id in s {
        StepKeepsAcceptor(store, reqs[0], id, ngo);
        assert forall k :: 0 <= k < |reqs[1..]| ==> !CreatesId(reqs[1..][k], id) by {
          forall k | 0 <= k < |reqs[1..]| ensures !CreatesId(reqs[1..][k], id) {
            assert reqs[1..][k] == reqs[k + 1];
          }
        }
        AcceptorNeverReassigned(s, reqs[1..], id, ngo);
      } else {
        DeletedStaysDeleted(s, reqs[1..], id);
      }
    }
  }

  /** A removed id does not come back unless some request creates it. */
  lemma {:induction false} DeletedStaysDeleted(store: ReportStore, reqs: seq<Request>, id: Id)
    requires id !in store
    requires forall k :: 0 <= k < |reqs| ==> !CreatesId(reqs[k], id)
    ensures id !in Run(store, reqs)
    decreases |reqs|
  {
    if |reqs| > 0 {
      var s := Step(store, reqs[0]);
      assert !CreatesId(reqs[0], id);
      assert id !in s;
      assert forall k :: 0 <= k < |reqs[1..]| ==> !CreatesId(reqs[1..][k], id) by {
        forall k | 0 <= k < |reqs[1..]| ensures !CreatesId(reqs[1..][k], id) {
          assert reqs[1..][k] == reqs[k + 1];
        }
      }
      DeletedStaysDeleted(s, reqs[1..], id);
    }
  }

  /** Of two acceptances of a pending report served one after the other, the first wins
      and the second is told the report is already accepted. */
  lemma SecondAcceptorLoses(store: ReportStore, id: Id, first: Id, second: Id)
    requires id in store && store[id].status == StatusPending
    ensures var s1 := AcceptReport(store, id, first);
            && s1.Ok?
            && AcceptReport(s1.value, id, second) == Err(BadRequest(AlreadyAccepted))
            && s1.value[id].acceptedBy == Some(first)
  {
  }

  // ---------------------------------------------------------------------------
  // Dispatch scenario
  // ---------------------------------------------------------------------------

  function StrayAt(lat: real, lon: real): ReportForm {
    ReportForm(None, None, Some(lat), Some(lon), Some("stray"), None, None, None)
  }

  /** A stray reported at (12.9, 77.6) is seen by an NGO querying 3 km around
      (12.91, 77.61); once that NGO accepts it a second query no longer returns it,
      and the acceptor's "Recovery" update is the report's only update entry. */
  lemma DispatchScenario(citizen: Id, ngo: Id, rid: Id, media: seq<string>, now: int)
    ensures
      var s0: ReportStore := map[];
      var q := RadiusQuery(Some(12.91), Some(77.61), Some(3000.0));
      var s1 := CreateReport(s0, citizen, StrayAt(12.9, 77.6), None, rid);
      && s1.Ok?
      && rid in ReportsByRadius(s1.value, q).value
      && var s2 := AcceptReport(s1.value, rid, ngo);
      && s2.Ok?
      && rid !in ReportsByRadius(s2.value, q).value
      && var u := UpdateForm(Some("Recovery"), None, None);
      && var s3 := UpdateAcceptedReport(s2.value, rid, ngo, u, media, now);
      && s3.Ok?
      && |s3.value[rid].updates| == 1
      && s3.value[rid].updates[0].status == Some("Recovery")
  {
  }

  /** The bounding box around (18.52, 73.86) reaches a report at (18.52, 73.85) with a
      5 km radius but not with a 100 m one. */
  lemma BoundingBoxExample(store: ReportStore, id: Id)
    requires id in store && Unclaimed(store[id])
    requires store[id].location == Location(Some(18.52), Some(73.85))
    ensures id in ReportsByRadius(store, RadiusQuery(Some(18.52), Some(73.86), Some(5000.0))).value
    ensures id !in ReportsByRadius(store, RadiusQuery(Some(18.52), Some(73.86), Some(100.0))).value
  {
  }

  // ---------------------------------------------------------------------------
  // The schema as written versus the controller
  // ---------------------------------------------------------------------------

  /** The radius filter applied to documents persisted under the schema as written. */
  predicate StoredMatchesRadius(d: StoredReport, lat: real, lon: real, radius: real) {
    && d.adminStatus == Some(AdminPending)
    && d.status == StatusPending
    && d.acceptedBy.None?
    && InBoundingBox(d.location, lat, lon, radius)
  }

  /** As written, a freshly created document carries status "pending" and no
      `adminStatus`, so no radius query ever returns it. */
  lemma AsWrittenNewReportNeverFound(user: Id, loc: Location, lat: real, lon: real, radius: real)
    ensures !StoredMatchesRadius(SchemaCreate(user, loc), lat, lon, radius)
  {
  }

  /** As written, saving the controller's "Accepted" fails the lower-case enum. */
  lemma AsWrittenAcceptFailsValidation(d: StoredReport)
    ensures SchemaSaveStatus(d, StatusAccepted).Err?
  {
  }

  /** An admin or NGO request against a document persisted under the schema as written. */
  datatype SchemaStep =
    | MarkAdmin(adminStatus: string)   // `updateAdminStatus`
    | TryAccept(caller: Id)            // `acceptReport`

  /** One request as written. `report.adminStatus = value` names a path the schema lacks,
      which strict mode ignores, so the save stores the document as it was. An accept sets
      `acceptedBy` and "Accepted" and saves; when that save fails validation nothing is
      stored. */
  function SchemaApply(d: StoredReport, step: SchemaStep): (r: StoredReport)
    ensures r.adminStatus == d.adminStatus
    ensures step.TryAccept? && SchemaSaveStatus(d, StatusAccepted).Err? ==> r == d
  {
    match step
    case MarkAdmin(_) => d
    case TryAccept(caller) =>
      var saved := SchemaSaveStatus(d.(acceptedBy := Some(caller)), StatusAccepted);
      if saved.Ok? then saved.value else d
  }

  function SchemaRun(d: StoredReport, steps: seq<SchemaStep>): StoredReport
    decreases |steps|
  {
    if |steps| == 0 then d else SchemaRun(SchemaApply(d, steps[0]), steps[1..])
  }

  /** `deleteFakeReport`'s check on a persisted document. */
  predicate SchemaDeletable(d: StoredReport) {
    d.adminStatus == Some(AdminFake)
  }

  /** `updateAcceptedReport`'s check on a persisted document. */
  predicate SchemaMayUpdate(d: StoredReport, caller: Id) {
    d.acceptedBy == Some(caller)
  }

  /** As written, whatever admins and NGOs do to a created report, it never becomes
      "Fake", so `deleteFakeReport` answers 400 for it, and it is never accepted, so
      `updateAcceptedReport` answers 403 to every caller. */
  lemma {:induction false} AsWrittenNoDeleteNoUpdate(user: Id, loc: Location, steps: seq<SchemaStep>, caller: Id)
    ensures var d := SchemaRun(SchemaCreate(user, loc), steps);
            && !SchemaDeletable(d)
            && !SchemaMayUpdate(d, caller)
            && d.status == SchemaCreate(user, loc).status
  {
    AsWrittenRunKeeps(SchemaCreate(user, loc), steps);
  }

  /** As written, no admin or NGO request changes a persisted document. */
  lemma {:induction false} AsWrittenRunKeeps(d: StoredReport, steps: seq<SchemaStep>)
    ensures SchemaRun(d, steps) == d
    decreases |steps|
  {
    if |steps| > 0 {
      AsWrittenRunKeeps(SchemaApply(d, steps[0]), steps[1..]);
    }
  }

  /** With the controller's own strings, a created report with coordinates is returned
      by any query centred on it with a positive radius, and can then be accepted. */
  lemma CreatedReportIsDiscoverable(store: ReportStore, caller: Id, form: ReportForm,
                                                       image: Option<string>, freshId: Id, radius: real)
    requires CreateReport(store, caller, form, image, freshId).Ok?
    requires NumberTruthy(form.latitude) && NumberTruthy(form.longitude) && radius > 0.0
    ensures var s := CreateReport(store, caller, form, image, freshId).value;
            && freshId in ReportsByRadius(s, RadiusQuery(form.latitude, form.longitude, Some(radius))).value
            && AcceptReport(s, freshId, caller).Ok?
  {
  }
}

=== FILE: report_model.dfy ===
/** The Report record of backend/src/model/report.js: its enumerations, its
    defaults, and the record as the report controller reads and writes it. */
module ReportModel {
  import opened Wrappers
  import opened Ids

  datatype AnimalType = Pet | Wild | Stray {
    function Name(): string {
      match this
      case Pet => "pet"
      case Wild => "wild"
      case Stray => "stray"
    }
  }

  datatype Behavior = Aggressive | Normal | UnknownBehavior {
    function Name(): string {
      match this
      case Aggressive => "aggressive"
      case Normal => "normal"
      case UnknownBehavior => "unknown"
    }
  }

  datatype Injury = InjuredYes | InjuredNo | InjuredUnknown {
    function Name(): string {
      match this
      case InjuredYes => "yes"
      case InjuredNo => "no"
      case InjuredUnknown => "unknown"
    }
  }

  datatype HumanHarm = HarmInjured | HarmNone | HarmDeath {
    function Name(): string {
      match this
      case HarmInjured => "injured"
      case HarmNone => "no"
      case HarmDeath => "death"
    }
  }

  /** The enum validator of `animalType`: exactly "pet", "wild" and "stray" are admitted. */
  function ParseAnimalType(s: string): (r: Option<AnimalType>)
    ensures r.Some? <==> s == "pet" || s == "wild" || s == "stray"
    ensures r.Some? ==> r.value.Name() == s
  {
    if s == "pet" then Some(Pet)
    else if s == "wild" then Some(Wild)
    else if s == "stray" then Some(Stray)
    else None
  }

  /** The enum validator of `behavior`: exactly "aggressive", "normal" and "unknown". */
  function ParseBehavior(s: string): (r: Option<Behavior>)
    ensures r.Some? <==> s == "aggressive" || s == "normal" || s == "unknown"
    ensures r.Some? ==> r.value.Name() == s
  {
    if s == "aggressive" then Some(Aggressive)
    else if s == "normal" then Some(Normal)
    else if s == "unknown" then Some(UnknownBehavior)
    else None
  }

  /** The enum validator of `injured`: exactly "yes", "no" and "unknown". */
  function ParseInjury(s: string): (r: Option<Injury>)
    ensures r.Some? <==> s == "yes" || s == "no" || s == "unknown"
    ensures r.Some? ==> r.value.Name() == s
  {
    if s == "yes" then Some(InjuredYes)
    else if s == "no" then Some(InjuredNo)
    else if s == "unknown" then Some(InjuredUnknown)
    else None
  }

  /** The enum validator of `humanHarm`: exactly "injured", "no" and "death". */
  function ParseHumanHarm(s: string): (r: Option<HumanHarm>)
    ensures r.Some? <==> s == "injured" || s == "no" || s == "death"
    ensures r.Some? ==> r.value.Name() == s
  {
    if s == "injured" then Some(HarmInjured)
    else if s == "no" then Some(HarmNone)
    else if s == "death" then Some(HarmDeath)
    else None
  }

  /** Every enumeration value is admitted back by its validator. */
  lemma EnumNamesRoundTrip(a: AnimalType, b: Behavior, i: Injury, h: HumanHarm)
    ensures ParseAnimalType(a.Name()) == Some(a)
    ensures ParseBehavior(b.Name()) == Some(b)
    ensures ParseInjury(i.Name()) == Some(i)
    ensures ParseHumanHarm(h.Name()) == Some(h)
  {
  }

  /** One treatment update embedded in a report. Fields the client omits stay absent;
      `updatedAt` is the server clock in milliseconds, absent on a first push. */
  datatype TreatmentUpdate = TreatmentUpdate(
    status: Option<string>,
    description: Option<string>,
    veterinaryNotes: Option<string>,
    media: seq<string>,
    updatedAt: Option<int>)

  datatype Location = Location(latitude: Option<real>, longitude: Option<real>)

  /** A report as the controller handles it: `status` takes the controller's strings
      ("Pending", "Accepted"), `adminStatus` any string an admin supplies. */
  datatype Report = Report(
    user: Id,
    incidentDate: Option<int>,
    address: Option<string>,
    location: Location,
    animalType: Option<AnimalType>,
    behavior: Option<Behavior>,
    injured: Option<Injury>,
    humanHarm: Option<HumanHarm>,
    image: Option<string>,
    status: string,
    adminStatus: string,
    acceptedBy: Option<Id>,
    updates: seq<TreatmentUpdate>)

  const StatusPending: string := "Pending"
  const StatusAccepted: string := "Accepted"
  const AdminPending: string := "Pending"
  const AdminFake: string := "Fake"

  type ReportStore = map<Id, Report>

  // ---------------------------------------------------------------------------
  // The schema as written. Its `status` enum is lower-case and it declares no
  // `adminStatus` and no `updates` path, so under Mongoose's strict mode those
  // assignments are not persisted. README "Findings" explains the consequence.
  // ---------------------------------------------------------------------------

  datatype SchemaStatus = SchemaPending | SchemaAccepted | SchemaResolved {
    function Name(): string {
      match this
      case SchemaPending => "pending"
      case SchemaAccepted => "accepted"
      case SchemaResolved => "resolved"
    }
  }

  /** The `status` enum validator of the schema. */
  function ParseSchemaStatus(s: string): (r: Option<SchemaStatus>)
    ensures r.Some? <==> s == "pending" || s == "accepted" || s == "resolved"
    ensures r.Some? ==> r.value.Name() == s
  {
    if s == "pending" then Some(SchemaPending)
    else if s == "accepted" then Some(SchemaAccepted)
    else if s == "resolved" then Some(SchemaResolved)
    else None
  }

  /** The persisted fields of a document created under the schema as written:
      `adminStatus` is absent because the schema has no such path. */
  datatype StoredReport = StoredReport(
    user: Id,
    location: Location,
    status: string,
    adminStatus: Option<string>,
    acceptedBy: Option<Id>)

  /** `Report.create` under the schema as written: status takes its default, and
      acceptedBy its default null. */
  function SchemaCreate(user: Id, location: Location): (d: StoredReport)
    ensures d.user == user && d.location == location
    ensures ParseSchemaStatus(d.status) == Some(SchemaPending)
    ensures d.acceptedBy.None? && d.adminStatus.None?
  {
    StoredReport(user, location, SchemaPending.Name(), None, None)
  }

  /** Assigning `status` and saving under the schema as written: the enum validator
      rejects any value outside the lower-case enum, and the handler's catch answers 500. */
  function SchemaSaveStatus(d: StoredReport, status: string): (r: Result<StoredReport>)
    ensures r.Ok? <==> ParseSchemaStatus(status).Some?
    ensures r.Ok? ==> r.value == d.(status := status)
    ensures r.Err? ==> r.failure.Code() == 500
  {
    if ParseSchemaStatus(status).Some? then Ok(d.(status := status))
    else Err(ServerError("Report validation failed: status"))
  }
}

=== FILE: seqs.dfy ===
/** Order-preserving sub-lists and filtering, shared by every list-narrowing step. */
module Seqs {

  /** `a` is `b` with some elements removed and the rest kept in order. */
  predicate SubsequenceOf<T(==)>(a: seq<T>, b: seq<T>)
    decreases |b|
  {
    if |a| == 0 then true
    else if |b| == 0 then false
    else if a[0] == b[0] then SubsequenceOf(a[1..], b[1..])
    else SubsequenceOf(a, b[1..])
  }

  lemma {:induction false} SubsequenceOfSelf<T>(s: seq<T>)
    ensures SubsequenceOf(s, s)
    decreases |s|
  {
    if |s| > 0 {
      SubsequenceOfSelf(s[1..]);
    }
  }

  /** Every element of a sub-list occurs in the list. */
  lemma {:induction false} SubsequenceMembers<T>(a: seq<T>, b: seq<T>)
    requires SubsequenceOf(a, b)
    ensures forall x :: x in a ==> x in b
    ensures |a| <= |b|
    decreases |b|
  {
    if |a| > 0 {
      if a[0] == b[0] {
        SubsequenceMembers(a[1..], b[1..]);
        assert forall x :: x in a ==> x == a[0] || x in a[1..];
      } else {
        SubsequenceMembers(a, b[1..]);
      }
    }
  }

  /** The elements of `s` satisfying `p`, in their original order. */
  function Filter<T>(p: T -> bool, s: seq<T>): (r: seq<T>)
    ensures SubsequenceOf(r, s)
    ensures forall i :: 0 <= i < |r| ==> p(r[i])
    ensures forall i :: 0 <= i < |s| && p(s[i]) ==> s[i] in r
    ensures multiset(r) <= multiset(s)
    decreases |s|
  {
    if |s| == 0 then []
    else
      var rest := Filter(p, s[1..]);
      assert s == [s[0]] + s[1..];
      if p(s[0]) then
        assert forall i :: 1 <= i < |s| ==> s[i] == s[1..][i - 1];
        [s[0]] + rest
      else
        assert forall i :: 1 <= i < |s| ==> s[i] == s[1..][i - 1];
        rest
  }

  /** Nothing survives a filter that no element passes. */
  lemma {:induction false} FilterNone<T>(p: T -> bool, s: seq<T>)
    requires forall i :: 0 <= i < |s| ==> !p(s[i])
    ensures Filter(p, s) == []
    decreases |s|
  {
    if |s| > 0 {
      FilterNone(p, s[1..]);
    }
  }

  /** Everything survives a filter that every element passes. */
  lemma {:induction false} FilterAll<T>(p: T -> bool, s: seq<T>)
    requires forall i :: 0 <= i < |s| ==> p(s[i])
    ensures Filter(p, s) == s
    decreases |s|
  {
    if |s| > 0 {
      FilterAll(p, s[1..]);
      assert s == [s[0]] + s[1..];
    }
  }

  /** Two predicates that agree on every element filter the same way. */
  lemma {:induction false} FilterSame<T>(p: T -> bool, q: T -> bool, s: seq<T>)
    requires forall i :: 0 <= i < |s| ==> p(s[i]) == q(s[i])
    ensures Filter(p, s) == Filter(q, s)
    decreases |s|
  {
    if |s| > 0 {
      FilterSame(p, q, s[1..]);
    }
  }

  /** One step of the filter: the head is kept exactly when it passes. */
  lemma FilterCons<T>(p: T -> bool, s: seq<T>)
    requires |s| > 0
    ensures Filter(p, s) == (if p(s[0]) then [s[0]] else []) + Filter(p, s[1..])
  {
  }

  /** Filtering by a predicate and by its complement splits the list: every element
      lands in exactly one of the two parts. */
  lemma {:induction false} FilterPartition<T>(p: T -> bool, q: T -> bool, s: seq<T>)
    requires forall i :: 0 <= i < |s| ==> q(s[i]) == !p(s[i])
    ensures multiset(Filter(p, s)) + multiset(Filter(q, s)) == multiset(s)
    ensures |Filter(p, s)| + |Filter(q, s)| == |s|
    decreases |s|
  {
    if |s| > 0 {
      var tail := s[1..];
      forall i | 0 <= i < |tail| ensures q(tail[i]) == !p(tail[i]) {
        assert tail[i] == s[i + 1];
      }
      FilterPartition(p, q, tail);
      FilterCons(p, s);
      FilterCons(q, s);
      PartitionStep(s[0], tail, Filter(p, tail), Filter(q, tail), p(s[0]), Filter(p, s), Filter(q, s));
      assert s == [s[0]] + tail;
    }
  }

  /** The multiset bookkeeping of one partition step, kept apart from the filter. */
  lemma PartitionStep<T>(x: T, tail: seq<T>, a: seq<T>, b: seq<T>, keep: bool, a': seq<T>, b': seq<T>)
    requires multiset(a) + multiset(b) == multiset(tail)
    requires a' == (if keep then [x] else []) + a
    requires b' == (if keep then [] else [x]) + b
    ensures multiset(a') + multiset(b') == multiset([x] + tail)
    ensures |a'| + |b'| == |[x] + tail|
  {
    assert |multiset(a)| + |multiset(b)| == |multiset(tail)|;
  }
}

=== FILE: text.dfy ===
/** Character and string helpers shared by the controllers and the screens.
    Case mapping is ASCII only; see README "Left out". */
module Text {
  import opened Wrappers

  predicate IsDigit(c: char) {
    '0' <= c <= '9'
  }

  predicate AllDigits(s: string) {
    forall i :: 0 <= i < |s| ==> IsDigit(s[i])
  }

  /** The regular expression `^\d{10}$` used for mobile numbers. */
  predicate IsTenDigits(s: string) {
    |s| == 10 && AllDigits(s)
  }

  function LowerChar(c: char): char {
    if 'A' <= c <= 'Z' then (c as int + 32) as char else c
  }

  function UpperChar(c: char): char {
    if 'a' <= c <= 'z' then (c as int - 32) as char else c
  }

  /** `String.prototype.toLowerCase` / `str.lower` on ASCII text. */
  function Lower(s: string): (r: string)
    ensures |r| == |s|
    ensures forall i :: 0 <= i < |s| ==> r[i] == LowerChar(s[i])
  {
    seq(|s|, i requires 0 <= i < |s| => LowerChar(s[i]))
  }

  /** `String.prototype.toUpperCase` on ASCII text. */
  function Upper(s: string): (r: string)
    ensures |r| == |s|
    ensures forall i :: 0 <= i < |s| ==> r[i] == UpperChar(s[i])
  {
    seq(|s|, i requires 0 <= i < |s| => UpperChar(s[i]))
  }

  predicate IsSpace(c: char) {
    c == ' ' || c == '\t' || c == '\n' || c == '\r' || c == '\U{B}' || c == '\U{C}'
  }

  function TrimStart(s: string): (r: string)
    ensures |r| <= |s| && r == s[|s| - |r|..]
    ensures |r| > 0 ==> !IsSpace(r[0])
  {
    if |s| > 0 && IsSpace(s[0]) then TrimStart(s[1..]) else s
  }

  function TrimEnd(s: string): (r: string)
    ensures |r| <= |s| && r == s[..|r|]
    ensures |r| > 0 ==> !IsSpace(r[|r| - 1])
  {
    if |s| > 0 && IsSpace(s[|s| - 1]) then TrimEnd(s[..|s| - 1]) else s
  }

  /** `String.prototype.trim` on ASCII whitespace. */
  function Trim(s: string): string {
    TrimEnd(TrimStart(s))
  }

  /** JavaScript truthiness of an optional string: absent and "" are falsy. */
  predicate Truthy(s: Option<string>) {
    s.Some? && s.value != ""
  }

  /** `value || fallback` for an optional string: a falsy value gives the fallback. This
      is also `if (value) field = value`, with the stored field as the fallback. */
  function OrElse(s: Option<string>, fallback: string): (r: string)
    ensures Truthy(s) ==> r == s.value
    ensures !Truthy(s) ==> r == fallback
  {
    if Truthy(s) then s.value else fallback
  }
}

=== FILE: update_status.dfy ===
/** The NGO's treatment-update screen, AniResQ/app/ngo/update-status.jsx: the form
    prefilled from the report, picking media, and what `handleSave` sends. */
module UpdateStatusScreen {
  import opened Wrappers
  import opened Ids
  import opened Text
  import opened ReportModel
  import opened ReportController

  /** An item of the screen's media list: the URL of media already on the report, or a
      file picked on the device. */
  datatype MediaItem =
    | Stored(url: string)
    | Picked(uri: string, name: string, mimeType: string)

  datatype FormState = FormState(status: string, description: string, vetNotes: string, media: seq<MediaItem>)

  /** The screen's state before the report arrives. */
  const DefaultStatus: string := "In Treatment"
  const InitialForm := FormState(DefaultStatus, "", "", [])

  /** The statuses `handleSave` accepts. */
  const ValidStatuses: set<string> := {"In Treatment", "Recovery", "Completed"}

  function StoredAll(urls: seq<string>): (r: seq<MediaItem>)
    ensures |r| == |urls| && forall i :: 0 <= i < |r| ==> r[i] == Stored(urls[i])
  {
    seq(|urls|, i requires 0 <= i < |urls| => Stored(urls[i]))
  }

  /** The form after the report is fetched: filled from the LAST entry of `updates`, each
      falsy field replaced by its default; with no updates the initial form stays. */
  function Prefill(updates: seq<TreatmentUpdate>): (r: FormState)
    ensures |updates| == 0 ==> r == InitialForm
    ensures |updates| > 0 ==>
      var last := updates[|updates| - 1];
      && r.status == OrElse(last.status, DefaultStatus)
      && r.description == OrElse(last.description, "")
      && r.vetNotes == OrElse(last.veterinaryNotes, "")
      && r.media == StoredAll(last.media)
  {
    if |updates| == 0 then InitialForm
    else
      var last := updates[|updates| - 1];
      FormState(OrElse(last.status, DefaultStatus), OrElse(last.description, ""),
                OrElse(last.veterinaryNotes, ""), StoredAll(last.media))
  }

  // ---------------------------------------------------------------------------
  // pickMedia
  // ---------------------------------------------------------------------------

  /** A picked asset: its URI, the file name the picker reported (if any), and whether
      it is a video. */
  datatype Asset = Asset(uri: string, fileName: Option<string>, isVideo: bool)

  /** `uri.split("/").pop()`: everything after the last '/', or the whole string. */
  function LastSegment(s: string): (r: string)
    ensures |r| <= |s| && r == s[|s| - |r|..]
    ensures '/' !in r
    ensures |r| < |s| ==> s[|s| - |r| - 1] == '/'
    decreases |s|
  {
    if |s| == 0 then ""
    else if s[|s| - 1] == '/' then ""
    else
      var rest := LastSegment(s[..|s| - 1]);
      assert s[..|s| - 1][|s| - 1 - |rest|..] + [s[|s| - 1]] == s[|s| - 1 - |rest|..];
      rest + [s[|s| - 1]]
  }

  function ToMedia(a: Asset): (m: MediaItem)
    ensures m.Picked? && m.uri == a.uri
    ensures m.name == OrElse(a.fileName, LastSegment(a.uri))
    ensures m.mimeType == if a.isVideo then "video/mp4" else "image/jpeg"
  {
    Picked(a.uri, OrElse(a.fileName, LastSegment(a.uri)), if a.isVideo then "video/mp4" else "image/jpeg")
  }

  /** `pickMedia`: a cancelled picker changes nothing; otherwise the picked assets are
      appended, in order, after the media already listed. */
  function PickMedia(media: seq<MediaItem>, canceled: bool, assets: seq<Asset>): (r: seq<MediaItem>)
    ensures canceled ==> r == media
    ensures !canceled ==> |r| == |media| + |assets|
    ensures r[..|media|] == media
    ensures !canceled ==> forall i :: 0 <= i < |assets| ==> r[|media| + i] == ToMedia(assets[i])
  {
    if canceled then media
    else media + seq(|assets|, i requires 0 <= i < |assets| => ToMedia(assets[i]))
  }

  // ---------------------------------------------------------------------------
  // handleSave
  // ---------------------------------------------------------------------------

  /** The URLs of the stored items, in order. */
  function Urls(media: seq<MediaItem>): seq<string>
    decreases |media|
  {
    if |media| == 0 then []
    else (if media[0].Stored? then [media[0].url] else []) + Urls(media[1..])
  }

  /** The picked files, in order. */
  function Files(media: seq<MediaItem>): seq<MediaItem>
    decreases |media|
  {
    if |media| == 0 then []
    else (if media[0].Picked? then [media[0]] else []) + Files(media[1..])
  }

  /** Both parts distribute over concatenation. */
  lemma {:induction false} UrlsConcat(a: seq<MediaItem>, b: seq<MediaItem>)
    ensures Urls(a + b) == Urls(a) + Urls(b)
    ensures Files(a + b) == Files(a) + Files(b)
    decreases |a|
  {
    if |a| > 0 {
      assert (a + b)[0] == a[0] && (a + b)[1..] == a[1..] + b;
      UrlsConcat(a[1..], b);
    } else {
      assert a + b == b;
    }
  }

  /** Every item lands in exactly one of the two parts. */
  lemma {:induction false} PartitionIsComplete(media: seq<MediaItem>)
    ensures |Urls(media)| + |Files(media)| == |media|
    ensures forall i :: 0 <= i < |Files(media)| ==> Files(media)[i].Picked?
    decreases |media|
  {
    if |media| > 0 {
      PartitionIsComplete(media[1..]);
    }
  }

  /** The loop over `media` in `handleSave`: string items become `existingMedia[]`
      fields and every other item a `media` file, each in its original order. */
  method PartitionMedia(media: seq<MediaItem>) returns (existing: seq<string>, files: seq<MediaItem>)
    ensures existing == Urls(media)
    ensures files == Files(media)
    ensures |existing| + |files| == |media|
  {
    existing, files := [], [];
    var i := 0;
    while i < |media|
      invariant 0 <= i <= |media|
      invariant existing == Urls(media[..i])
      invariant files == Files(media[..i])
    {
      UrlsConcat(media[..i], [media[i]]);
      assert media[..i + 1] == media[..i] + [media[i]];
      if media[i].Stored? {
        existing := existing + [media[i].url];
      } else {
        files := files + [media[i]];
      }
      i := i + 1;
    }
    assert media[..i] == media;
    PartitionIsComplete(media);
  }

  /** The multipart request `handleSave` would send. */
  datatype SaveRequest = SaveRequest(form: UpdateForm, existingMedia: seq<string>, files: seq<MediaItem>)

  datatype SaveOutcome =
    | LoginAgain
    | InvalidStatus
    | Send(request: SaveRequest)

  /** `handleSave` up to the request: no token, or a status outside the three choices,
      stops before anything is sent; otherwise all three text fields go as strings and
      the media list is partitioned. */
  method HandleSave(token: Option<string>, fs: FormState) returns (r: SaveOutcome)
    ensures !Truthy(token) <==> r == LoginAgain
    ensures Truthy(token) && fs.status !in ValidStatuses <==> r == InvalidStatus
    ensures r.Send? ==> fs.status in ValidStatuses
    ensures r.Send? ==> r.request.form == UpdateForm(Some(fs.status), Some(fs.description), Some(fs.vetNotes))
    ensures r.Send? ==> r.request.existingMedia == Urls(fs.media) && r.request.files == Files(fs.media)
  {
    if !Truthy(token) {
      return LoginAgain;
    }
    if fs.status !in ValidStatuses {
      return InvalidStatus;
    }
    var existing, files := PartitionMedia(fs.media);
    r := Send(SaveRequest(UpdateForm(Some(fs.status), Some(fs.description), Some(fs.vetNotes)), existing, files));
  }

  /** How the request ended: answered with a 2xx, or failed with an error message. */
  datatype Response = Answered | Failed(message: string)

  /** The screen reports success on an answer, and also on an error whose message is
      exactly "Network Error". */
  predicate ShowsSuccess(resp: Response) {
    resp.Answered? || resp.message == "Network Error"
  }

  /** The title of the alert `handleSave` ends with; `resp` is how the request ended,
      and matters only when one was sent. */
  function SaveAlert(outcome: SaveOutcome, resp: Response): (title: string)
    ensures outcome == LoginAgain ==> title == "Login again"
    ensures outcome == InvalidStatus ==> title == "Invalid Status"
    ensures outcome.Send? ==> (title == "Success" <==> ShowsSuccess(resp))
    ensures outcome.Send? ==> (title == "Update Failed" <==> !ShowsSuccess(resp))
  {
    match outcome
    case LoginAgain => "Login again"
    case InvalidStatus => "Invalid Status"
    case Send(_) => if ShowsSuccess(resp) then "Success" else "Update Failed"
  }

  /** A failed request is reported as a success exactly when its message is
      "Network Error", whatever the server did with it; every other failure reads
      "Update Failed", and a request stopped before sending never reads "Success". */
  lemma NetworkErrorLooksLikeSuccess(outcome: SaveOutcome, m: string)
    ensures ShowsSuccess(Failed(m)) <==> m == "Network Error"
    ensures outcome.Send? ==> (SaveAlert(outcome, Failed(m)) == "Success" <==> m == "Network Error")
    ensures !outcome.Send? ==> SaveAlert(outcome, Failed(m)) != "Success"
  {
  }

  // ---------------------------------------------------------------------------
  // Picking, then saving
  // ---------------------------------------------------------------------------

  lemma {:induction false} AllPicked(ms: seq<MediaItem>)
    requires forall i :: 0 <= i < |ms| ==> ms[i].Picked?
    ensures Urls(ms) == [] && Files(ms) == ms
    decreases |ms|
  {
    if |ms| > 0 {
      AllPicked(ms[1..]);
      assert ms == [ms[0]] + ms[1..];
    }
  }

  /** Picking and then saving: the request carries the URLs already listed, unchanged,
      and the files already picked followed by the newly picked assets, in picker order. */
  lemma {:induction false} PickThenSave(media: seq<MediaItem>, assets: seq<Asset>)
    ensures var r := PickMedia(media, false, assets);
            && Urls(r) == Urls(media)
            && |Files(r)| == |Files(media)| + |assets|
            && Files(r)[..|Files(media)|] == Files(media)
            && forall i :: 0 <= i < |assets| ==> Files(r)[|Files(media)| + i] == ToMedia(assets[i])
  {
    var r := PickMedia(media, false, assets);
    var picked := r[|media|..];
    assert r == media + picked;
    AllPicked(picked);
    UrlsConcat(media, picked);
  }

  /** Round trip through the server: what the acceptor saves is what the screen shows
      next time, except the media, which become only the newly uploaded files' URLs
      (the handler ignores `existingMedia[]`). */
  lemma SaveThenPrefill(store: ReportStore, id: Id, ngo: Id, fs: FormState,
                                           uploaded: seq<string>, now: int)
    requires id in store && store[id].acceptedBy == Some(ngo) && |store[id].updates| <= 1
    requires fs.status in ValidStatuses
    ensures var form := UpdateForm(Some(fs.status), Some(fs.description), Some(fs.vetNotes));
            var s := UpdateAcceptedReport(store, id, ngo, form, uploaded, now);
            && s.Ok?
            && Prefill(s.value[id].updates) == fs.(media := StoredAll(uploaded))
  {
  }
}

=== FILE: user_model.dfy ===
/** The User record of backend/src/model/User.js. */
module UserModel {
  import opened Wrappers
  import opened Ids
  import Text

  datatype Role = Citizen | Ngo | Admin {
    function Name(): string {
      match this
      case Citizen => "citizen"
      case Ngo => "ngo"
      case Admin => "admin"
    }
  }

  /** The `role` enum validator: exactly "citizen", "ngo" and "admin". */
  function ParseRole(s: string): (r: Option<Role>)
    ensures r.Some? <==> s == "citizen" || s == "ngo" || s == "admin"
    ensures r.Some? ==> r.value.Name() == s
  {
    if s == "citizen" then Some(Citizen)
    else if s == "ngo" then Some(Ngo)
    else if s == "admin" then Some(Admin)
    else None
  }

  const DefaultRole: Role := Citizen

  datatype Address = Address(latitude: Option<real>, longitude: Option<real>)

  /** `password` holds the hash; `otpExpiry` is in milliseconds. */
  datatype User = User(
    name: string,
    email: string,
    password: string,
    mobileno: string,
    role: Role,
    isBlacklisted: bool,
    address: Address,
    image: Option<string>,
    regiid: Option<string>,
    aboutus: string,
    mission: string,
    otp: Option<string>,
    otpExpiry: Option<int>)

  type UserStore = map<Id, User>

  /** The `lowercase` and `trim` setters of the `email` path. */
  function NormalizeEmail(email: string): string {
    Text.Trim(Text.Lower(email))
  }

  /** A user as `User.create` stores it when only the required fields are given:
      every optional path takes its schema default. */
  function NewUser(name: string, email: string, password: string, mobileno: string): (u: User)
    ensures u.email == NormalizeEmail(email)
    ensures u.role == Citizen && !u.isBlacklisted
    ensures u.regiid.None? && u.aboutus == "" && u.mission == ""
    ensures u.otp.None? && u.otpExpiry.None?
  {
    User(name, NormalizeEmail(email), password, mobileno, DefaultRole, false,
         Address(None, None), None, None, "", "", None, None)
  }

  /** The unique indexes on `email` and `mobileno`: no two stored users share either. */
  ghost predicate UniqueKeys(users: UserStore) {
    forall a, b :: a in users && b in users && a != b ==>
      users[a].email != users[b].email && users[a].mobileno != users[b].mobileno
  }

  /** Whether storing `u` under `id` would violate a unique index. */
  predicate ClashesWith(users: UserStore, id: Id, u: User) {
    exists other :: other in users && other != id &&
      (users[other].email == u.email || users[other].mobileno == u.mobileno)
  }

  /** A write that passes the unique-index check keeps every index unique. */
  lemma WriteKeepsUniqueKeys(users: UserStore, id: Id, u: User)
    requires UniqueKeys(users)
    requires !ClashesWith(users, id, u)
    ensures UniqueKeys(users[id := u])
  {
  }
}

=== FILE: volunteer_controller.dfy ===
/** The volunteer handlers of backend/src/controller/volunteerController.js. */
module VolunteerController {
  import opened Wrappers
  import opened Ids
  import opened UserModel
  import opened VolunteerModel

  /** At most one request exists for each (citizen, NGO) pair. */
  ghost predicate OnePerPair(requests: RequestStore) {
    forall a, b :: a in requests && b in requests && a != b ==>
      (requests[a].citizen, requests[a].ngo) != (requests[b].citizen, requests[b].ngo)
  }

  predicate HasRequest(requests: RequestStore, citizen: Id, ngo: Id) {
    exists id :: id in requests && requests[id].citizen == citizen && requests[id].ngo == ngo
  }

  predicate IsNgo(users: UserStore, id: Id) {
    id in users && users[id].role == Ngo
  }

  /** `sendVolunteerRequest`: 404 unless the target is a user with role "ngo"; 400 when
      the pair already has a request, leaving the store unchanged; otherwise a pending
      request from the caller to that NGO is added. */
  function SendVolunteerRequest(requests: RequestStore, users: UserStore, citizen: Id, ngo: Id,
                                freshId: Id): (r: Result<RequestStore>)
    ensures !IsNgo(users, ngo) ==> r == Err(NotFound("NGO not found"))
    ensures IsNgo(users, ngo) && HasRequest(requests, citizen, ngo) ==> r == Err(BadRequest("Request already sent"))
    ensures r.Ok? <==> IsNgo(users, ngo) && !HasRequest(requests, citizen, ngo) && freshId !in requests
    ensures r.Ok? ==> r.value.Keys == requests.Keys + {freshId}
    ensures r.Ok? ==> forall id :: id in requests ==> r.value[id] == requests[id]
    ensures r.Ok? ==> r.value[freshId].citizen == citizen && r.value[freshId].ngo == ngo
    ensures r.Ok? ==> r.value[freshId].status == RequestPending
  {
    if !IsNgo(users, ngo) then Err(NotFound("NGO not found"))
    else if HasRequest(requests, citizen, ngo) then Err(BadRequest("Request already sent"))
    else if freshId in requests then Err(ServerError(DuplicateKey))
    else Ok(requests[freshId := NewRequest(citizen, ngo)])
  }

  /** A successful send keeps one request per pair. */
  lemma SendKeepsOnePerPair(requests: RequestStore, users: UserStore, citizen: Id, ngo: Id,
                                               freshId: Id)
    requires OnePerPair(requests)
    requires SendVolunteerRequest(requests, users, citizen, ngo, freshId).Ok?
    ensures OnePerPair(SendVolunteerRequest(requests, users, citizen, ngo, freshId).value)
  {
  }

  /** A request to send: the caller, the target NGO and the id the store would assign. */
  datatype Send = Send(citizen: Id, ngo: Id, freshId: Id)

  function SendAll(requests: RequestStore, users: UserStore, sends: seq<Send>): RequestStore
    decreases |sends|
  {
    if |sends| == 0 then requests
    else
      var s := sends[0];
      var r := SendVolunteerRequest(requests, users, s.citizen, s.ngo, s.freshId);
      SendAll(if r.Ok? then r.value else requests, users, sends[1..])
  }

  /** After any sequence of sends, at most one request exists per (citizen, NGO) pair. */
  lemma {:induction false} SendsKeepOnePerPair(requests: RequestStore, users: UserStore, sends: seq<Send>)
    requires OnePerPair(requests)
    ensures OnePerPair(SendAll(requests, users, sends))
    decreases |sends|
  {
    if |sends| > 0 {
      var s := sends[0];
      var r := SendVolunteerRequest(requests, users, s.citizen, s.ngo, s.freshId);
      if r.Ok? {
        SendKeepsOnePerPair(requests, users, s.citizen, s.ngo, s.freshId);
      }
      SendsKeepOnePerPair(if r.Ok? then r.value else requests, users, sends[1..]);
    }
  }

  /** Sending the same pair twice: the second send is refused. */
  lemma RepeatedSendRefused(requests: RequestStore, users: UserStore, citizen: Id, ngo: Id,
                                               id1: Id, id2: Id)
    requires SendVolunteerRequest(requests, users, citizen, ngo, id1).Ok?
    ensures var s := SendVolunteerRequest(requests, users, citizen, ngo, id1).value;
            SendVolunteerRequest(s, users, citizen, ngo, id2) == Err(BadRequest("Request already sent"))
  {
  }

  /** `getNgoRequests`: exactly the requests addressed to the caller. */
  function NgoRequests(requests: RequestStore, caller: Id): (r: RequestStore)
    ensures forall id :: id in r <==> id in requests && requests[id].ngo == caller
    ensures forall id :: id in r ==> r[id] == requests[id]
  {
    map id | id in requests && requests[id].ngo == caller :: requests[id]
  }

  /** The NGO sees a new request in its list as soon as it is sent, and no other NGO's
      list changes; a later status change keeps the list's ids and shows the new status. */
  lemma SentRequestReachesNgo(requests: RequestStore, users: UserStore, citizen: Id, ngo: Id,
                              freshId: Id, other: Id, status: string)
    requires SendVolunteerRequest(requests, users, citizen, ngo, freshId).Ok?
    requires other != ngo
    ensures var sent := SendVolunteerRequest(requests, users, citizen, ngo, freshId).value;
            && NgoRequests(sent, ngo).Keys == NgoRequests(requests, ngo).Keys + {freshId}
            && NgoRequests(sent, ngo)[freshId].citizen == citizen
            && NgoRequests(sent, other) == NgoRequests(requests, other)
            && var changed := UpdateRequestStatus(sent, freshId, status);
               changed.Ok? ==>
                 && NgoRequests(changed.value, ngo).Keys == NgoRequests(sent, ngo).Keys
                 && NgoRequests(changed.value, ngo)[freshId].status.Name() == status
  {
  }

  /** `updateRequestStatus`: 404 for an unknown id; otherwise the supplied status replaces
      the current one whatever it was and whoever asks. A value outside the enum fails the
      schema's validation on save, which the handler answers with 500. */
  function UpdateRequestStatus(requests: RequestStore, id: Id, status: string): (r: Result<RequestStore>)
    ensures id !in requests ==> r == Err(NotFound("Request not found"))
    ensures r.Ok? <==> id in requests && ParseRequestStatus(status).Some?
    ensures r.Err? && id in requests ==> r.failure.Code() == 500
    ensures r.Ok? ==> r.value.Keys == requests.Keys
    ensures r.Ok? ==> forall other :: other in requests && other != id ==> r.value[other] == requests[other]
    ensures r.Ok? ==> r.value[id].status.Name() == status
    ensures r.Ok? ==> r.value[id].citizen == requests[id].citizen && r.value[id].ngo == requests[id].ngo
  {
    if id !in requests then Err(NotFound("Request not found"))
    else
      var parsed := ParseRequestStatus(status);
      if parsed.None? then Err(ServerError("VolunteerRequest validation failed: status"))
      else Ok(requests[id := requests[id].(status := parsed.value)])
  }

  /** A status change keeps one request per pair. */
  lemma StatusChangeKeepsOnePerPair(requests: RequestStore, id: Id, status: string)
    requires OnePerPair(requests)
    requires UpdateRequestStatus(requests, id, status).Ok?
    ensures OnePerPair(UpdateRequestStatus(requests, id, status).value)
  {
  }
}

=== FILE: volunteer_model.dfy ===
/** The VolunteerRequest record of backend/src/model/VolunteerRequest.js. */
module VolunteerModel {
  import opened Wrappers
  import opened Ids

  datatype RequestStatus = RequestPending | RequestAccepted | RequestRejected {
    function Name(): string {
      match this
      case RequestPending => "pending"
      case RequestAccepted => "accepted"
      case RequestRejected => "rejected"
    }
  }

  /** The `status` enum validator: exactly "pending", "accepted" and "rejected". */
  function ParseRequestStatus(s: string): (r: Option<RequestStatus>)
    ensures r.Some? <==> s == "pending" || s == "accepted" || s == "rejected"
    ensures r.Some? ==> r.value.Name() == s
  {
    if s == "pending" then Some(RequestPending)
    else if s == "accepted" then Some(RequestAccepted)
    else if s == "rejected" then Some(RequestRejected)
    else None
  }

  /** Both references are required, so they are plain ids rather than options. */
  datatype VolunteerRequest = VolunteerRequest(citizen: Id, ngo: Id, status: RequestStatus)

  type RequestStore = map<Id, VolunteerRequest>

  /** A request as `VolunteerRequest.create` stores it: status takes its default. */
  function NewRequest(citizen: Id, ngo: Id): (r: VolunteerRequest)
    ensures r.citizen == citizen && r.ngo == ngo
    ensures r.status.Name() == "pending"
  {
    VolunteerRequest(citizen, ngo, RequestPending)
  }
}

=== FILE: wrappers.dfy ===
/** Optional values, handler outcomes and the HTTP failures the backend answers with. */
module Wrappers {

  /** A JavaScript/Python value that may be absent (`undefined`, `null`, `None`). */
  datatype Option<+T> = None | Some(value: T) {
    function GetOr(default: T): T {
      match this
      case Some(v) => v
      case None => default
    }
  }

  /** The error responses the Express handlers send before any mutation. */
  datatype Failure =
    | BadRequest(message: string)      // 400
    | Unauthorized(message: string)    // 401
    | Forbidden(message: string)       // 403
    | NotFound(message: string)        // 404
    | ServerError(message: string)     // 500, an exception caught by the handler
  {
    function Code(): nat {
      match this
      case BadRequest(_) => 400
      case Unauthorized(_) => 401
      case Forbidden(_) => 403
      case NotFound(_) => 404
      case ServerError(_) => 500
    }
  }

  /** What a handler returns: its value on success, or the failure it answered with. */
  datatype Result<+T> = Ok(value: T) | Err(failure: Failure)

  /** Message used when a unique index (the `_id`, `email` or `mobileno` index) rejects a write. */
  const DuplicateKey: string := "E11000 duplicate key error"
}

/** Document identifiers (MongoDB ObjectIds), opaque and comparable for equality only. */
module Ids {
  type Id = nat
}
